=== FILE: README.md ===
# Pixel filters of the graphics programming final project, in Dafny

This project models the pixel-filter engine of a p5.js webcam gallery. It proves properties of that model.

A p5 image is a width, a height and a flat row-major RGBA buffer. Pixel (x, y) starts at index (y * width + x) * 4. The filters of `filters.js` all work on this buffer:

- invert
- grayscale with a 1.2 brightness factor
- single-channel extraction with an optional threshold
- HSV/HSI colour-space remapping
- box blur, built on the generic `convolution` of `utils.js`
- 5x5 block pixelation

`FaceDetectionWidget` in `widget.js` applies one of these filters inside a face box. It rounds the detector's rectangle to an integer box and masks the image to that box with `crop`. It then dispatches on the filter's name.

Modules:

- `Raster` (`raster.dfy`): the image, pixel access, the two typed-array facts the filters rely on, and the index arithmetic every filter shares. The two facts: NaN is stored as 0, and stores past the end are dropped.
- `PixelFilters` (`pixel_filters.dfy`): `invertFilter`, `grayscaleFilter` and `RGBFilter`.
- `ColorSpace` (`color_space.dfy`): `colorSpaceFilter`, with the HSV hue branches exactly as the source tests them.
- `Convolution` (`convolution.dfy`): `convolution`, with its clamped flat index.
- `Blur` (`blur.dfy`): `blurFilter`.
- `Pixelate` (`pixelate.dfy`): `pixelatedFilter`.
  - The block list has x outer, y inner, and both loops are bounded by the width.
  - The averages are rounded with `Math.round`.
  - The painting is a fold over the blocks, so last-write-wins can be stated.
- `FaceWidget` (`widget.dfy`): the bounding box, `crop`, the filter dispatch, and the constructor's state.

Channel values are exact reals. JavaScript NaN (from 0/0 or from reading `undefined` past the buffer) is modelled as a value of its own, `Num.NaN`. It is turned into 0 where the pixel buffer stores it.

Where the code and its documented intent differ, the model follows the code:

- HSV on a black pixel is not guarded. Hue and saturation are NaN and are stored as 0.
- The HSV hue of a pure red pixel is 360, not a value in [0, 360). Red is the maximum and green the minimum, so the first branch gives 5 + bluePrime = 6 sixths of a turn (`PureRedHue`).
- The fifth hue branch (`red === max` after the two red tests) is unreachable (`HueBranch`).
- HSI with R + G + B = 0 is not guarded. I is 0, and S is 1 - (3 / 0) * 0 = 1 - Infinity * 0, which is NaN. The angle's argument is 0/0, and B/I and G/I are both 0/0, so H stays NaN.
- The pixelation inner loop is bounded by the width, not the height. For a width that is a multiple of 5, `RowsFromWidthStayGray` shows the consequence: rows at or below index `width` keep their grey value.
- The last block column is not cut at the right edge. When the width is not a multiple of 5, that column's flat indices run past the end of a row and wrap into the next one. For width 7, the block at origin (5, 0) lists pixel (8, 1), which is pixel (1, 2), at slot i = 3, j = 1; the block at (0, 0) lists the same pixel (`LastColumnWraps`). The results about a pixel's own block therefore assume a width that is a multiple of 5.
- Even kernel sizes are accepted by `convolution`. The taps then run from c - n/2 to c + n/2 - 1 (`TapSpan`). The widget's blur level is 10.
- `crop` does not check its box. The model covers every box: the contract of `Crop` holds for any box, and `CropInsideBox` gives the masked-copy reading for boxes inside the image.

## Model

| member | source | states |
|---|---|---|
| Raster.Stored | filters.js:210-212 | a NaN written into the pixel array reads back as 0; a number reads back as itself |
| Raster.Round | filters.js:364-367 | `Math.round` is the integer within one half of its argument, halves going up |
| Raster.Read | filters.js:334-337 | a read inside the buffer gives the stored value; a read past either end gives `undefined`, which is NaN in arithmetic |
| Raster.Write | filters.js:384-389 | a typed-array store past either end of the buffer is dropped; any other store replaces exactly one index |
| Raster.Generate | filters.js:18-34 | the x/y loop over a fresh image writes every pixel (x, y) exactly once, at index (y * width + x) * 4 |
| Raster.Blank | widget.js:232 | `createImage` gives transparent black at every pixel |
| Raster.Extensionality | filters.js:18-34 | two buffers of the same size that agree on every pixel read through (y * width + x) * 4 are equal |
| Raster.RowMajorUnique | filters.js:20 | two pixels with x below the width share a flat index only if they are the same pixel |
| PixelFilters.Invert | filters.js:18-32 | each colour channel plus its inverted value is 255; alpha is copied |
| PixelFilters.InvertInvolution | filters.js:29-32 | inverting twice gives back the image |
| PixelFilters.InvertKeepsRange | filters.js:29-32 | inversion keeps every channel of a p5 image in [0, 255] |
| PixelFilters.Grayscale | filters.js:69-79 | R = G = B = min(255, 0.4 (R + G + B)), which is 1.2 times the average capped at 255; alpha is copied |
| PixelFilters.GrayscaleKeepsRange | filters.js:69-79 | the grayscale of a p5 image stays in [0, 255] |
| PixelFilters.Binarize | filters.js:118-120 | the thresholded value is 0 or 255, and 255 exactly when it exceeds the threshold |
| PixelFilters.ChannelFilter | filters.js:116-127 | the two other colour channels are 0; alpha is copied; the kept channel is copied, or is 0/255 with 255 exactly above a truthy threshold |
| PixelFilters.ZeroThresholdIsNoThreshold | filters.js:116 | a threshold of 0 is falsy, so it behaves as no threshold |
| PixelFilters.ThresholdIsIsolateThenBinarize | filters.js:116-127 | thresholding equals isolating the channel and then binarising it |
| PixelFilters.WhiteImageExample | filters.js:29-32 | on an all-white 2x2 image: invert gives opaque black, grayscale stays white, the red filter gives opaque red |
| ColorSpace.BinarizeNum | filters.js:203-207 | a thresholded NaN is 0 (comparisons with NaN are false); a number becomes 255 exactly above the threshold |
| ColorSpace.HueBranch | filters.js:193-198 | the hue branch taken is never the fifth test; the sixth is taken exactly when neither red nor green is the maximum |
| ColorSpace.HueSixths | filters.js:186-199 | for a pixel with max > min, the hue before the factor 60 lies in [0, 6] |
| ColorSpace.HsvSaturation | filters.js:178-180 | the saturation is NaN exactly when the maximum is 0, and lies in [0, 1] for any other byte pixel |
| ColorSpace.BlueMaxHue | filters.js:193-199 | a pixel whose maximum is blue alone gets hue 60 * (5 - redPrime); with red minimal that is 240 |
| ColorSpace.HsvHue | filters.js:186-200 | the hue is NaN exactly when the maximum is 0 (0/0 fails the `saturation === 0` test, since NaN === 0 is false, and takes the first branch), and otherwise lies in [0, 360] |
| ColorSpace.PureRedHue | filters.js:193-199 | a pure red pixel has hue 360, not 0 |
| ColorSpace.HsvUnthresholded | filters.js:178-212 | value is the maximum; saturation is (max - min) / max in [0, 1]; hue is in [0, 360]; a grey pixel has hue and saturation 0; a black pixel's NaNs are stored as 0 |
| ColorSpace.HsiSaturation | filters.js:215-217 | S is NaN exactly when R + G + B = 0, and lies in [0, 1] for any other byte pixel |
| ColorSpace.HsiRanges | filters.js:215-240 | HSI intensity is the channel average in [0, 255]; saturation is in [0, 1]; a grey pixel has hue and saturation 0 |
| ColorSpace.ColorSpaceFilter | filters.js:176-248 | "HSV" and "HSI" map each pixel through their formulas, any other space copies the colour, and alpha is always copied |
| ColorSpace.ThresholdedIsBinary | filters.js:203-207 | under a truthy threshold every hue, saturation and value/intensity written is 0 or 255 |
| ColorSpace.HsvImage | filters.js:176-212 | per pixel of a p5 image, the unthresholded HSV output has value = max, saturation in [0, 1], hue in [0, 360], alpha copied |
| Convolution.Convolve | utils.js:9-33 | for a p5 image and a kernel with no negative weight, each of R, G, B lies between 0 and 255 times the kernel's total weight |
| Convolution.Constrain | utils.js:24 | p5 `constrain` returns the index itself inside the bounds, the low bound below them, the high bound above them |
| Convolution.ReadIndex | utils.js:23-24 | the clamped flat index is non-negative, at most length - offset, 0 for a negative raw index, and the raw index when it is in range |
| Convolution.TapSpan | utils.js:14-22 | the taps start at c - n/2 and end at c + n/2 (odd n) or c + n/2 - 1 (even n) |
| Convolution.WrapsToAdjacentRow | utils.js:20-24 | an x-coordinate one past either edge reads the neighbouring row's edge pixel, not a clamped one |
| Convolution.ClampedTopIsMisaligned | utils.js:24 | with offset 5 an index clamped from above lands on an alpha slot (index % 4 == 3) |
| Convolution.BottomRightReadsAlphaAsRed | utils.js:18-28 | at the bottom-right pixel, level 10's centre tap reads the second-to-last pixel's alpha as red |
| Convolution.InteriorConvolution | utils.js:18-31 | when every tap is inside the image, the result is the weighted sum of the tap pixels' channels |
| Convolution.UnitKernelIsIdentity | utils.js:18-31 | the kernel [[1]] returns the pixel's own R, G, B |
| Convolution.ConvolveIgnoresAlpha | utils.js:26-28 | images that differ only in alpha convolve to the same triple, when every tap index is aligned |
| Blur.BoxKernel | filters.js:275-276 | the kernel has level rows of level entries, each 1 / level^2 |
| Blur.BoxKernelSumsToOne | filters.js:275-276 | the box kernel's weights add up to 1 |
| Blur.Blur | filters.js:281-298 | each pixel's R, G, B are the box-kernel convolution at its coordinates; alpha is copied |
| Blur.WideKernelDefined | utils.js:24-28 | from level 6 the clamped index plus 2 stays inside the buffer, so the blur reads defined values on every image |
| Blur.BlurKeepsRange | filters.js:275-298 | blurring a p5 image keeps every channel in [0, 255] whenever the blur reads only defined values, because the box weights are non-negative and add up to 1 |
| Blur.LevelOneIsIdentity | filters.js:275-298 | blurring at level 1 gives back the image |
| Pixelate.Steps | filters.js:326-327 | the loops take ceil(width / 5) steps: the last start is below width and the next is not |
| Pixelate.BlockSlot | filters.js:330-333 | slot 5i + j of the block at (ox, oy) holds the flat index of pixel (ox + i, oy + j): i is the outer loop, j the inner |
| Pixelate.InnerOriginsAt | filters.js:327 | the inner loop from y = 5 j0 pushes n - j0 origins, the t-th at y = 5 (j0 + t) |
| Pixelate.OuterOriginsAt | filters.js:326-347 | the nested loops from x = 5 i0 push (n - i0) n origins in push order, the b-th at (5 (i0 + b / n), 5 (b % n)) |
| Pixelate.Stamps | filters.js:326-372 | the blocks are listed in the loops' push order, n = ceil(width / 5) steps each: block b has origin (5 (b / n), 5 (b % n)) and its averages come from the original image |
| Pixelate.Mean | filters.js:356-367 | a block average is NaN exactly when one of the block's reads falls outside the buffer, and otherwise lies in [0, 255] for a p5 image |
| Pixelate.LastListing | filters.js:378-390 | the chosen block lists the index and no later block does |
| Pixelate.PaintAll | filters.js:378-390 | with pixel-aligned lists, each channel holds the colour of the last block listing its pixel, and keeps its value when no block lists it |
| Pixelate.PaintAllEffect | filters.js:378-390 | last write wins, read per pixel and channel: channel c of a pixel listed by some block holds the last such block's average, any other keeps its value; derived from `PaintAll`'s contract for the pixel-level lemmas |
| Pixelate.Pixelated | filters.js:311-393 | a pixel no block lists keeps its grey value; any other takes the four averages of the last block listing it |
| Pixelate.TotalNaN | filters.js:336-364 | a block's sum is NaN exactly when one of its reads falls outside the buffer |
| Pixelate.MeanBehaviour | filters.js:356-367 | a block average is NaN exactly when the block reads past the buffer, and stores a value in [0, 255] |
| Pixelate.PixelatedKeepsRange | filters.js:311-393 | pixelating a p5 image keeps every channel in [0, 255] |
| Pixelate.LastColumnWraps | filters.js:326-333 | for width 7 there are 4 blocks, and pixel (1, 2) is listed both by block 0 and by block 2, whose slot i = 3, j = 1 wraps into the next row |
| Pixelate.ListedOnlyByHomeBlock | filters.js:326-333 | for a width that is a multiple of 5, only the block of cell (x / 5, y / 5) lists pixel (x, y) |
| Pixelate.HomeBlockLists | filters.js:326-333 | for a width that is a multiple of 5, that block does list the pixel when x and y are below the width |
| Pixelate.FullBlockIsUniform | filters.js:378-390 | for a width that is a multiple of 5, every pixel of block b's 5x5 cell ends with that block's colour when the cell lies inside the image |
| Pixelate.FullBlockMeansDefined | filters.js:356-367 | for a width that is a multiple of 5, a block inside the image has four finite averages |
| Pixelate.RowsFromWidthStayGray | filters.js:327 | for a width that is a multiple of 5, no block lists a row at or below index width, so those pixels keep their grey value |
| Pixelate.BlockColourIsCellMean | filters.js:356-367 | for a width that is a multiple of 5, a block inside the image has, per channel, the colour Math.round of the mean of its 25 pixels |
| Pixelate.HomeBlockWins | filters.js:326-390 | for a width that is a multiple of 5 and a pixel above row width, block (x / 5) n + y / 5 is the last to list it, and the pixel ends with that block's colour |
| Pixelate.EveryPixelTakesItsCellMean | filters.js:311-393 | for sides that are multiples of 5 and height at most width, every pixel ends with its cell's rounded means |
| FaceWidget.BoundingBox | widget.js:155-160 | the box corner is the floor and the extent the ceiling of the detection; no face gives the all-zero box |
| FaceWidget.BoxEdgesWithinOnePixel | widget.js:155-160 | the box's right and bottom edges are within one pixel of the detection's |
| FaceWidget.BoxCanFallShort | widget.js:155-160 | a detection at x = 0.5, one pixel wide, gets the box [0, 1), missing its right half |
| FaceWidget.Crop | widget.js:231-265 | for any box, the crop has the input's size; an index whose pixel the loops visit holds the input's value, and every other index is 0 |
| FaceWidget.BoxHitsExactly | widget.js:243-248 | the loops visit exactly the indices of the pixels in the box |
| FaceWidget.CropInsideBox | widget.js:231-265 | for a box inside the image, pixels in the box are copied and all others are transparent black |
| FaceWidget.CropIdempotent | widget.js:231-265 | cropping twice with the same box equals cropping once |
| FaceWidget.FullBoxIsIdentity | widget.js:231-265 | the box covering the image gives the image back |
| FaceWidget.CropKeepsRange | widget.js:231-265 | the crop of a p5 image stays in [0, 255] |
| FaceWidget.OnePixelCropExample | widget.js:231-265 | the one-pixel box at the origin of a 2x2 image copies only indices 0 to 3 |
| FaceWidget.ApplyFilter | widget.js:167-194 | the result has the input's size; "blur" gives the level-10 blur, whose reads are all defined, and "pixelated" gives the pixelation; a name outside the five known ones returns the image unchanged |
| FaceWidget.ApplyFilterAlpha | widget.js:167-183 | grayscale, colorSpace, inverted and blur keep every pixel's alpha |
| FaceWidget.ApplyFilterPixelwise | widget.js:167-180 | grayscale, colorSpace (HSV, null threshold) and inverted act on each pixel on its own |
| FaceWidget.NewFaceDetectionWidget | widget.js:151-195 | the box comes from the detection; with a face the cropped image is the crop to that box, and without one the image is used uncropped; a p5 image's crop stays in [0, 255]; the filtered image is the dispatch of the cropped image, so an unknown filter leaves it as it is |
| FaceWidget.OutsideBoxIsTransparent | widget.js:163-183 | with an alpha-copying filter and a box inside the image, every pixel outside the box has alpha 0 after filtering |
| FaceWidget.FilteredPixel | widget.js:163-180 | inside the box a pixel-wise filter gives the filtered input pixel; outside, the filter of transparent black |

## Left out

- `sketch.js` and `base.js`: the p5 setup and draw loop, webcam capture, the asynchronous face-detection callbacks and keyboard handling are I/O and UI glue.
- Widget drawing (`draw`, `drawTitle`, the instruction strip) and all of `LiveFaceDetectionWidget` are canvas calls that return nothing.
- The constructor's `title`, `x` and `y`, and the two extra arguments it passes to `pixelatedFilter`, are not modelled. They only position the drawing, and `pixelatedFilter` ignores the extra arguments.
- `loadPixels`/`updatePixels` are not modelled, because they only synchronise the canvas with the buffer.
- The Uint8ClampedArray's rounding and clamping of finite values are not modelled. Channel values are exact reals.
  - For p5 images, invert, grayscale, the channel filter, blur (`BlurKeepsRange`), pixelation (`PixelatedKeepsRange`) and the crop write values in [0, 255], so clamping never applies to them.
  - colorSpace does not stay in range: an HSV hue runs up to 360, and the HSI hue 360 - H exceeds 255. The clamped array would store those as 255; the model keeps the exact value.
  - HSV/HSI outputs such as a hue of 240 or a saturation of 0.75 would be stored rounded; the model keeps the exact value.
- IEEE double arithmetic is not modelled. All arithmetic is on exact reals, so rounding error and overflow are out of scope.
- ColorSpace.HsiHue: the `Math.acos`/`Math.pow` angle is transcendental. It is a caller-supplied function of the pixel; only its use (0 for zero saturation, 360 - H when B > G) is modelled.
- Convolution.Convolve: requires every tap's clamped index plus 2 to lie inside the buffer. Below offset 3 the source can read `undefined` there, and that NaN path is not modelled. The widget's level 10 always meets the requirement (`Blur.WideKernelDefined`).
- PixelFilters.ChannelFilter: takes an enum of the three channels instead of a string. The source's only callers pass "red", "green" or "blue". Another string would zero all three channels, which is not modelled.
- FaceWidget.NewFaceDetectionWidget: the filter name is a string, with `null` represented by any name the switch does not know. Both fall to the `default` branch.
- Pixelation under the widget is not covered by `OutsideBoxIsTransparent`. A block that straddles the box edge paints its averaged alpha on pixels outside the box.
- The filters and the widget accept any channel values, as the source does. Only the range lemmas and their helpers (`InvertKeepsRange`, `GrayscaleKeepsRange`, `HsvImage`, `BlurKeepsRange`, `PixelatedKeepsRange`, `CropKeepsRange`) assume p5's [0, 255] channel range, which every p5 image meets.

=== FILE: blur.dfy ===
/**
 * `blurFilter(img, level)` of filters.js: a box blur.  The kernel is
 * level-by-level with every weight 1 / level^2; each output pixel takes the
 * convolution triple as R, G, B and keeps the input pixel's alpha.
 */
module Blur {
  import opened Raster
  import opened Convolution

  /** The box kernel: level rows, each level copies of 1 / level^2. */
  function BoxKernel(level: nat): (k: Kernel)
    ensures |k| == level && Square(k)
    ensures forall i, j | 0 <= i < level && 0 <= j < level :: k[i][j] * ((level * level) as real) == 1.0
    ensures NonNegative(k)
  {
    if level == 0 then []
    else seq(level, i => seq(level, j => 1.0 / ((level * level) as real)))
  }

  /** m entries that all equal v add up to m * v. */
  lemma {:induction false} ConstantSum(s: seq<real>, v: real, m: nat)
    requires m <= |s|
    requires forall j | 0 <= j < |s| :: s[j] == v
    ensures Sum(s, m) == m as real * v
  {
    if m > 0 {
      ConstantSum(s, v, m - 1);
      assert (m - 1) as real * v + v == m as real * v;
    }
  }

  /** The weights of a box kernel of any positive level add up to 1. */
  lemma BoxKernelSumsToOne(level: nat)
    requires level >= 1
    ensures Weight(BoxKernel(level)) == 1.0
  {
    var k := BoxKernel(level);
    var n := level as real;
    var v := 1.0 / ((level * level) as real);
    var rows := RowWeights(k);
    forall i | 0 <= i < level
      ensures rows[i] == n * v
    {
      ConstantSum(k[i], v, level);
    }
    ConstantSum(rows, n * v, level);
    SquareShare(level);
  }

  /** level copies of level copies of 1 / level^2 make 1. */
  lemma SquareShare(level: nat)
    requires level >= 1
    ensures (level as real) * ((level as real) * (1.0 / ((level * level) as real))) == 1.0
  {
    var n := level as real;
    assert (level * level) as real == n * n;
  }

  /** Every pixel's taps read defined values, as the blur needs. */
  predicate BlurDefined(img: Image, level: nat)
  {
    forall x, y | 0 <= x < img.width && 0 <= y < img.height :: ReadsDefined(img, x, y, level)
  }

  function BlurPixel(img: Image, level: nat, x: int, y: int): Pixel
    requires BlurDefined(img, level)
  {
    if InBounds(img, x, y) then
      var c := Convolve(img, x, y, BoxKernel(level));
      Pixel(c.r, c.g, c.b, Px(img, x, y).a)
    else Black
  }

  /**
   * `blurFilter`: every pixel's R, G, B are the box-kernel convolution at its
   * coordinates and its alpha is the input pixel's alpha.
   */
  function Blur(img: Image, level: nat): (r: Image)
    requires img.Valid() && BlurDefined(img, level)
    ensures r.width == img.width && r.height == img.height && r.Valid()
    ensures forall x, y | InBounds(img, x, y) ::
      Px(r, x, y).a == Px(img, x, y).a &&
      Rgb(Px(r, x, y).r, Px(r, x, y).g, Px(r, x, y).b) == Convolve(img, x, y, BoxKernel(level))
  {
    Generate(img.width, img.height, (x, y) => BlurPixel(img, level, x, y))
  }

  /**
   * A p5 image stays a p5 image under the blur: each R, G, B is a weighted
   * sum of buffer values in [0, 255] with non-negative weights adding up to
   * at most 1, and alpha is copied.
   */
  lemma BlurKeepsRange(img: Image, level: nat)
    requires img.Valid() && ChannelRange(img) && BlurDefined(img, level)
    ensures ChannelRange(Blur(img, level))
  {
    var r := Blur(img, level);
    var k := BoxKernel(level);
    if level == 0 {
      assert Weight(k) == 0.0;
    } else {
      BoxKernelSumsToOne(level);
    }
    forall x, y | InBounds(r, x, y)
      ensures PixelRange(Px(r, x, y))
    {
      PxRange(img, x, y);
      var c := Convolve(img, x, y, k);
      assert Rgb(Px(r, x, y).r, Px(r, x, y).g, Px(r, x, y).b) == c;
    }
    RangeFromPixels(r);
  }

  /**
   * A kernel of level 6 or more has offset at least 3, so the clamped index
   * plus 2 never passes the end of the buffer: the blur is defined on every
   * image.  The face widget's level 10 is such a level.
   */
  lemma WideKernelDefined(img: Image, level: nat)
    requires img.Valid() && level >= 6
    ensures BlurDefined(img, level)
  {
    forall x, y | InBounds(img, x, y)
      ensures ReadsDefined(img, x, y, level)
    {
      IndexInRange(img.width, img.height, x, y);
    }
  }

  /** Level 1 is the kernel [[1]]: blurring with it gives back the image. */
  lemma LevelOneIsIdentity(img: Image)
    requires img.Valid()
    ensures BlurDefined(img, 1)
    ensures Blur(img, 1) == img
  {
    assert BoxKernel(1)[0] == [1.0];
    assert BoxKernel(1) == [[1.0]];
    forall x, y | InBounds(img, x, y)
      ensures ReadsDefined(img, x, y, 1)
    {
      UnitKernelIsIdentity(img, x, y);
    }
    var r := Blur(img, 1);
    forall x, y | InBounds(r, x, y)
      ensures Px(r, x, y) == Px(img, x, y)
    {
      UnitKernelIsIdentity(img, x, y);
    }
    Extensionality(r, img);
  }
}

=== FILE: color_space.dfy ===
/**
 * `colorSpaceFilter` of filters.js: every pixel's R, G, B are replaced by
 * (hue, saturation, value) for "HSV", by (H, S, I) for "HSI", and copied for
 * any other space name; alpha is always copied.  The three numbers are stored
 * as they are, not re-encoded as display RGB.
 *
 * Black pixels make the source divide 0 by 0.  The resulting NaN is modelled
 * with `Num`; the pixel buffer stores it as 0, and a comparison with the
 * threshold is false for it.
 */
module ColorSpace {
  import opened Raster
  import opened PixelFilters

  function Max3(a: real, b: real, c: real): (m: real)
    ensures m >= a && m >= b && m >= c
    ensures m == a || m == b || m == c
  {
    if a >= b && a >= c then a else if b >= c then b else c
  }

  function Min3(a: real, b: real, c: real): (m: real)
    ensures m <= a && m <= b && m <= c
    ensures m == a || m == b || m == c
  {
    if a <= b && a <= c then a else if b <= c then b else c
  }

  function MaxOf(p: Pixel): real { Max3(p.r, p.g, p.b) }

  function MinOf(p: Pixel): real { Min3(p.r, p.g, p.b) }

  /** R, G, B all lie in [0, 255], as in a p5 image. */
  predicate ByteColour(p: Pixel)
  {
    0.0 <= p.r <= 255.0 && 0.0 <= p.g <= 255.0 && 0.0 <= p.b <= 255.0
  }

  /** A part of a whole lies in [0, 1] as a fraction of it. */
  lemma FractionInUnit(a: real, d: real)
    ensures 0.0 <= a <= d && d > 0.0 ==> 0.0 <= a / d <= 1.0
  {
    if 0.0 <= a <= d && d > 0.0 {
      assert a / d * d == a;
    }
  }

  /** The binarisation `v > t ? 255 : 0` of a possibly-NaN number: NaN > t is false. */
  function BinarizeNum(n: Num, t: real): (b: real)
    ensures b == 255.0 || b == 0.0
    ensures b == 255.0 <==> n.Finite? && n.v > t
  {
    if n.Finite? && n.v > t then 255.0 else 0.0
  }

  /** What the filter writes for one of the three numbers, with or without threshold. */
  function Output(n: Num, th: Threshold): real
  {
    if Active(th) then BinarizeNum(n, th.t) else Stored(n)
  }

  // ------------------------------------------------------------------- HSV

  /**
   * Which of the six hue branches of the source a chromatic pixel takes,
   * in the order of the code's conditions: 1 red max and green min, 2 red max,
   * 3 green max and blue min, 4 green max, 5 red max, 6 otherwise.  The
   * fifth test is never reached: the first two already take every pixel
   * whose maximum is red, so the last branch is taken exactly when neither
   * red nor green is the maximum.
   */
  function HueBranch(p: Pixel): (b: int)
    ensures 1 <= b <= 6 && b != 5
    ensures b == 6 <==> p.r != MaxOf(p) && p.g != MaxOf(p)
  {
    var max, min := MaxOf(p), MinOf(p);
    if p.r == max && p.g == min then 1
    else if p.r == max && p.g != min then 2
    else if p.g == max && p.b == min then 3
    else if p.g == max && p.b != min then 4
    else if p.r == max then 5
    else 6
  }

  /**
   * The hue of a chromatic pixel in sixths of a turn, by the branch taken.
   * Each of redPrime, greenPrime and bluePrime lies in [0, 1], so every
   * branch gives between 0 and 6 sixths, both included.
   */
  function HueSixths(p: Pixel): (h: real)
    requires MaxOf(p) > MinOf(p)
    ensures 0.0 <= h <= 6.0
  {
    var max, min := MaxOf(p), MinOf(p);
    var redPrime := (max - p.r) / (max - min);
    var greenPrime := (max - p.g) / (max - min);
    var bluePrime := (max - p.b) / (max - min);
    FractionInUnit(max - p.r, max - min);
    FractionInUnit(max - p.g, max - min);
    FractionInUnit(max - p.b, max - min);
    match HueBranch(p)
    case 1 => 5.0 + bluePrime
    case 2 => 1.0 - greenPrime
    case 3 => redPrime + 1.0
    case 4 => 3.0 - bluePrime
    case 5 => 3.0 + greenPrime
    case _ => 5.0 - redPrime
  }

  /**
   * HSV saturation (max - min) / max: NaN exactly for a black pixel (0/0),
   * and in [0, 1] for any other byte pixel.
   */
  function HsvSaturation(p: Pixel): (s: Num)
    ensures s.NaN? <==> MaxOf(p) == 0.0
    ensures ByteColour(p) && s.Finite? ==> 0.0 <= s.v <= 1.0
  {
    var max, min := MaxOf(p), MinOf(p);
    FractionInUnit(max - min, max);
    if max == 0.0 then NaN else Finite((max - min) / max)
  }

  /**
   * HSV hue in degrees: 0 when the saturation is 0, NaN for a black pixel
   * (its saturation is NaN, so the sector formula runs on 0/0).
   */
  function HsvHue(p: Pixel): (h: Num)
    ensures h.NaN? <==> MaxOf(p) == 0.0
    ensures h.Finite? ==> 0.0 <= h.v <= 360.0
  {
    var max, min := MaxOf(p), MinOf(p);
    if max == 0.0 then NaN
    else if max == min then Finite(0.0)
    else Finite(HueSixths(p) * 60.0)
  }

  function HsvPixel(p: Pixel, th: Threshold): Pixel
  {
    Pixel(Output(HsvHue(p), th), Output(HsvSaturation(p), th), Output(Finite(MaxOf(p)), th), p.a)
  }

  /**
   * Every chromatic pixel whose maximum is blue takes the last branch,
   * 5 - redPrime; in particular every blue-max, red-min pixel gets hue 240
   * whatever its green.
   */
  lemma BlueMaxHue(p: Pixel)
    requires ByteColour(p) && MaxOf(p) > MinOf(p)
    requires p.b == MaxOf(p) && p.r != MaxOf(p) && p.g != MaxOf(p)
    ensures HsvHue(p) == Finite((5.0 - (MaxOf(p) - p.r) / (MaxOf(p) - MinOf(p))) * 60.0)
    ensures p.r == MinOf(p) ==> HsvHue(p) == Finite(240.0)
  {
    var d := MaxOf(p) - MinOf(p);
    if p.r == MinOf(p) {
      assert (MaxOf(p) - p.r) / d == 1.0;
    }
  }

  /** Pure red: the first branch gives 5 + 1 sixths, so hue 360 rather than 0. */
  lemma PureRedHue(v: real)
    requires v > 0.0
    ensures HsvHue(Pixel(v, 0.0, 0.0, 255.0)) == Finite(360.0)
  {
    var p := Pixel(v, 0.0, 0.0, 255.0);
    assert MaxOf(p) == v && MinOf(p) == 0.0;
    assert HueBranch(p) == 1;
    assert (v - 0.0) / (v - 0.0) == 1.0;
  }

  /**
   * The unthresholded HSV of a non-black byte pixel: value = max, saturation
   * = (max - min) / max in [0, 1], hue in [0, 360], hue and saturation 0 for
   * a grey pixel.  A black pixel's NaNs are stored as 0.
   */
  lemma HsvUnthresholded(p: Pixel)
    requires ByteColour(p)
    ensures var q := HsvPixel(p, Null);
      q.a == p.a &&
      q.b == MaxOf(p) &&
      (MaxOf(p) > 0.0 ==> q.g == (MaxOf(p) - MinOf(p)) / MaxOf(p) && 0.0 <= q.g <= 1.0) &&
      (MaxOf(p) > 0.0 ==> 0.0 <= q.r <= 360.0) &&
      (p.r == p.g == p.b ==> q.r == 0.0 && q.g == 0.0) &&
      (MaxOf(p) == 0.0 ==> q == Pixel(0.0, 0.0, 0.0, p.a))
  {
    var max, min := MaxOf(p), MinOf(p);
    FractionInUnit(max - min, max);
  }

  // ------------------------------------------------------------------- HSI

  /** HSI intensity: the channel average. */
  function HsiIntensity(p: Pixel): Num
  {
    Finite((p.r + p.g + p.b) / 3.0)
  }

  /**
   * 1 - (3 / sum) * min: NaN exactly when sum = 0 (1 - Infinity * 0), and in
   * [0, 1] for any other byte pixel.
   */
  function HsiSaturation(p: Pixel): (s: Num)
    ensures s.NaN? <==> p.r + p.g + p.b == 0.0
    ensures ByteColour(p) && s.Finite? ==> 0.0 <= s.v <= 1.0
  {
    var sum := p.r + p.g + p.b;
    SaturationInUnit(p);
    if sum == 0.0 then NaN else Finite(1.0 - (3.0 / sum) * MinOf(p))
  }

  /**
   * HSI hue.  `angle` stands for the source's
   * Math.acos((0.5 (R - G) + (R - B)) / sqrt((R - G)^2 + (R - B)(G - B))),
   * which is transcendental and is supplied by the caller.  H is 0 when S is
   * 0, else the angle; then 360 - H when B / I > G / I, which for I > 0 means
   * B > G.  A black pixel's H is NaN.
   */
  function HsiHue(p: Pixel, angle: Pixel -> real): Num
  {
    var sum := p.r + p.g + p.b;
    if sum == 0.0 then NaN
    else
      var h := if HsiSaturation(p) == Finite(0.0) then 0.0 else angle(p);
      Finite(if p.b > p.g then 360.0 - h else h)
  }

  function HsiPixel(p: Pixel, th: Threshold, angle: Pixel -> real): Pixel
  {
    Pixel(Output(HsiHue(p, angle), th), Output(HsiSaturation(p), th), Output(HsiIntensity(p), th), p.a)
  }

  /**
   * The HSI intensity of a byte pixel lies in [0, 255] and its saturation in
   * [0, 1]; a grey pixel has saturation and hue 0.
   */
  lemma HsiRanges(p: Pixel, angle: Pixel -> real)
    requires ByteColour(p)
    ensures var q := HsiPixel(p, Null, angle);
      q.a == p.a && 0.0 <= q.b <= 255.0 && q.b * 3.0 == p.r + p.g + p.b &&
      0.0 <= q.g <= 1.0 &&
      (p.r == p.g == p.b ==> q.r == 0.0 && q.g == 0.0)
  {
  }

  /** For a byte pixel with a positive sum, 1 - (3 / sum) * min lies in [0, 1]. */
  lemma SaturationInUnit(p: Pixel)
    ensures ByteColour(p) && p.r + p.g + p.b != 0.0 ==>
      0.0 <= 1.0 - (3.0 / (p.r + p.g + p.b)) * MinOf(p) <= 1.0
  {
    if ByteColour(p) && p.r + p.g + p.b != 0.0 {
      var sum := p.r + p.g + p.b;
      var min := MinOf(p);
      assert 0.0 <= 3.0 * min <= sum;
      assert (3.0 / sum) * min == 3.0 * min / sum;
      FractionInUnit(3.0 * min, sum);
    }
  }

  // ---------------------------------------------------------------- filter

  function SpacePixel(p: Pixel, space: string, th: Threshold, angle: Pixel -> real): Pixel
  {
    if space == "HSV" then HsvPixel(p, th)
    else if space == "HSI" then HsiPixel(p, th, angle)
    else p
  }

  /**
   * `colorSpaceFilter`.  Alpha is copied for every space; a space other than
   * "HSV" and "HSI" copies R, G, B; under a truthy threshold each of the
   * three stored numbers is 0 or 255.
   */
  function ColorSpaceFilter(img: Image, space: string, th: Threshold, angle: Pixel -> real): (r: Image)
    ensures r.width == img.width && r.height == img.height && r.Valid()
    ensures forall x, y | InBounds(img, x, y) :: Px(r, x, y).a == Px(img, x, y).a
    ensures space != "HSV" && space != "HSI" ==>
      forall x, y | InBounds(img, x, y) :: Px(r, x, y) == Px(img, x, y)
    ensures space == "HSV" ==> forall x, y | InBounds(img, x, y) ::
      Px(r, x, y) == HsvPixel(Px(img, x, y), th)
    ensures space == "HSI" ==> forall x, y | InBounds(img, x, y) ::
      Px(r, x, y) == HsiPixel(Px(img, x, y), th, angle)
  {
    MapPixels(img, p => SpacePixel(p, space, th, angle))
  }

  /** Under a truthy threshold every stored hue, saturation and value is 0 or 255. */
  lemma ThresholdedIsBinary(img: Image, space: string, t: real, angle: Pixel -> real, x: int, y: int)
    requires t != 0.0 && InBounds(img, x, y)
    requires space == "HSV" || space == "HSI"
    ensures var q := Px(ColorSpaceFilter(img, space, Given(t), angle), x, y);
      (q.r == 0.0 || q.r == 255.0) && (q.g == 0.0 || q.g == 255.0) && (q.b == 0.0 || q.b == 255.0)
  {
  }

  /** Every pixel of a p5 image has byte colour channels. */
  lemma PixelIsByte(img: Image, x: int, y: int)
    requires img.Valid() && ChannelRange(img) && InBounds(img, x, y)
    ensures ByteColour(Px(img, x, y))
  {
    IndexInRange(img.width, img.height, x, y);
  }

  /**
   * The unthresholded HSV image: at every non-black pixel the value channel
   * is the maximum, the saturation lies in [0, 1] and the hue in [0, 360];
   * black pixels come out (0, 0, 0) with their alpha.
   */
  lemma HsvImage(img: Image, angle: Pixel -> real, x: int, y: int)
    requires img.Valid() && ChannelRange(img) && InBounds(img, x, y)
    ensures var p, q := Px(img, x, y), Px(ColorSpaceFilter(img, "HSV", Null, angle), x, y);
      q.b == MaxOf(p) && 0.0 <= q.g <= 1.0 && 0.0 <= q.r <= 360.0 && q.a == p.a &&
      (MaxOf(p) == 0.0 ==> q.r == 0.0 && q.g == 0.0 && q.b == 0.0)
  {
    PixelIsByte(img, x, y);
    HsvUnthresholded(Px(img, x, y));
  }
}

=== FILE: convolution.dfy ===
/**
 * `convolution(x, y, kernel, img)` of utils.js: the weighted R, G, B sums of
 * an N-by-N neighbourhood of pixel (x, y).  Tap (i, j) sits at
 * (x + i - offset, y + j - offset) with offset = floor(N / 2); the buffer
 * index of a tap is clamped as a flat index into [0, len - offset], not per
 * coordinate.
 */
module Convolution {
  import opened Raster

  /** The three sums the function returns as [totalRed, totalGreen, totalBlue]. */
  datatype Rgb = Rgb(r: real, g: real, b: real)

  type Kernel = seq<seq<real>>

  /** The source indexes kernel[i][j] for i, j < kernel.length. */
  predicate Square(k: Kernel)
  {
    forall i | 0 <= i < |k| :: |k[i]| == |k|
  }

  /** p5's `constrain(n, low, high)`, which is max(min(n, high), low). */
  function Constrain(n: int, low: int, high: int): (c: int)
    ensures c >= low
    ensures low <= high ==> c <= high
    ensures low <= n <= high ==> c == n
    ensures n < low ==> c == low
    ensures low <= high < n ==> c == high
  {
    var m := if n < high then n else high;
    if m > low then m else low
  }

  /** Coordinate of tap i of an n-tap kernel around coordinate c. */
  function Tap(c: int, i: int, n: nat): int
  {
    c + i - n / 2
  }

  /**
   * The buffer index read for tap location (xLoc, yLoc): the row-major index
   * clamped into [0, len - offset].  It is never negative, a negative
   * row-major index reads pixel 0, and an index already inside the range is
   * read unchanged.
   */
  function ReadIndex(img: Image, xLoc: int, yLoc: int, offset: int): (k: int)
    ensures 0 <= k
    ensures offset <= |img.pixels| ==> k <= |img.pixels| - offset
    ensures (img.width * yLoc + xLoc) * 4 < 0 ==> k == 0
    ensures 0 <= (img.width * yLoc + xLoc) * 4 <= |img.pixels| - offset ==>
      k == (img.width * yLoc + xLoc) * 4
  {
    Constrain((img.width * yLoc + xLoc) * 4, 0, |img.pixels| - offset)
  }

  /** The red-channel index read for tap (i, j) of an n-tap kernel at (x, y). */
  function TapIndex(img: Image, x: int, y: int, n: nat, i: int, j: int): int
  {
    ReadIndex(img, Tap(x, i, n), Tap(y, j, n), n / 2)
  }

  /** Every tap reads R, G and B inside the buffer (no `undefined`, hence no NaN). */
  predicate ReadsDefined(img: Image, x: int, y: int, n: nat)
  {
    forall i, j | 0 <= i < n && 0 <= j < n :: TapIndex(img, x, y, n, i, j) + 2 < |img.pixels|
  }

  /** Sum of the first m entries of s, added in order. */
  function Sum(s: seq<real>, m: nat): real
    requires m <= |s|
  {
    if m == 0 then 0.0 else Sum(s, m - 1) + s[m - 1]
  }

  /** Sum over j < m of v[j] * w[j], added in order of j. */
  function Dot(v: seq<real>, w: seq<real>, m: nat): real
    requires m <= |v| && m <= |w|
  {
    if m == 0 then 0.0 else Dot(v, w, m - 1) + v[m - 1] * w[m - 1]
  }

  /** The n values pixels[TapIndex(i, j) + c] read for kernel row i, in order of j. */
  function RowReads(img: Image, x: int, y: int, n: nat, c: nat, i: nat): (v: seq<real>)
    requires ReadsDefined(img, x, y, n) && c < 3 && i < n
    ensures |v| == n
  {
    seq(n, j requires 0 <= j < n => img.pixels[TapIndex(img, x, y, n, i, j) + c])
  }

  /** Sum over j of pixels[TapIndex(i, j) + c] * k[i][j]: the inner loop for row i. */
  function RowSum(img: Image, x: int, y: int, k: Kernel, c: nat, i: nat): real
    requires Square(k) && ReadsDefined(img, x, y, |k|)
    requires c < 3 && i < |k|
  {
    Dot(RowReads(img, x, y, |k|, c, i), k[i], |k|)
  }

  /** The inner-loop sums of every kernel row, in order of i. */
  function RowSums(img: Image, x: int, y: int, k: Kernel, c: nat): (s: seq<real>)
    requires Square(k) && ReadsDefined(img, x, y, |k|) && c < 3
    ensures |s| == |k|
  {
    seq(|k|, i requires 0 <= i < |k| => RowSum(img, x, y, k, c, i))
  }

  /** The running total of channel c over both loops. */
  function KernelSum(img: Image, x: int, y: int, k: Kernel, c: nat): real
    requires Square(k) && ReadsDefined(img, x, y, |k|) && c < 3
  {
    Sum(RowSums(img, x, y, k, c), |k|)
  }

  /**
   * The [R, G, B] triple `convolution` returns; alpha is not part of it.  On
   * a p5 image with non-negative weights each sum is a weighted sum of
   * values in [0, 255], so it lies between 0 and 255 times the total weight.
   */
  function Convolve(img: Image, x: int, y: int, k: Kernel): (r: Rgb)
    requires Square(k) && ReadsDefined(img, x, y, |k|)
    ensures ChannelRange(img) && NonNegative(k) ==>
      0.0 <= r.r <= 255.0 * Weight(k) && 0.0 <= r.g <= 255.0 * Weight(k) && 0.0 <= r.b <= 255.0 * Weight(k)
  {
    KernelSumBound(img, x, y, k, 0);
    KernelSumBound(img, x, y, k, 1);
    KernelSumBound(img, x, y, k, 2);
    Rgb(KernelSum(img, x, y, k, 0), KernelSum(img, x, y, k, 1), KernelSum(img, x, y, k, 2))
  }

  // ------------------------------------------------------------ weights

  /** Every weight of the kernel is non-negative. */
  predicate NonNegative(k: Kernel)
  {
    forall i, j | 0 <= i < |k| && 0 <= j < |k[i]| :: 0.0 <= k[i][j]
  }

  /** The sum of each kernel row, in order. */
  function RowWeights(k: Kernel): (s: seq<real>)
    ensures |s| == |k|
  {
    seq(|k|, i requires 0 <= i < |k| => Sum(k[i], |k[i]|))
  }

  /** The sum of every weight of a kernel, row by row. */
  function Weight(k: Kernel): real
  {
    Sum(RowWeights(k), |k|)
  }

  /** A product of a value in [0, 255] and a non-negative weight. */
  lemma ProductBound(v: real, w: real)
    requires 0.0 <= v <= 255.0 && 0.0 <= w
    ensures 0.0 <= v * w <= 255.0 * w
  {
  }

  /** Values in [0, 255] weighted by non-negative weights sum to between 0 and 255 times the weights' sum. */
  lemma {:induction false} DotBound(v: seq<real>, w: seq<real>, m: nat)
    requires m <= |v| && m <= |w|
    requires forall j | 0 <= j < m :: 0.0 <= v[j] <= 255.0 && 0.0 <= w[j]
    ensures 0.0 <= Dot(v, w, m) <= 255.0 * Sum(w, m)
  {
    if m > 0 {
      DotBound(v, w, m - 1);
      ProductBound(v[m - 1], w[m - 1]);
      assert 0.0 <= v[m - 1] * w[m - 1] <= 255.0 * w[m - 1];
      AddBounds(Dot(v, w, m - 1), v[m - 1] * w[m - 1], Sum(w, m - 1), w[m - 1]);
    }
  }

  lemma AddBounds(a: real, p: real, s: real, t: real)
    requires 0.0 <= a <= 255.0 * s && 0.0 <= p <= 255.0 * t
    ensures 0.0 <= a + p <= 255.0 * (s + t)
  {
  }

  /** Entries each between 0 and 255 times a bound sum to between 0 and 255 times the bounds' sum. */
  lemma {:induction false} SumBound(s: seq<real>, u: seq<real>, m: nat)
    requires m <= |s| && m <= |u|
    requires forall j | 0 <= j < m :: 0.0 <= s[j] <= 255.0 * u[j]
    ensures 0.0 <= Sum(s, m) <= 255.0 * Sum(u, m)
  {
    if m > 0 {
      SumBound(s, u, m - 1);
    }
  }

  /** KernelSum of channel c is a weighted sum of buffer values. */
  lemma KernelSumBound(img: Image, x: int, y: int, k: Kernel, c: nat)
    requires Square(k) && ReadsDefined(img, x, y, |k|) && c < 3
    ensures ChannelRange(img) && NonNegative(k) ==> 0.0 <= KernelSum(img, x, y, k, c) <= 255.0 * Weight(k)
  {
    if ChannelRange(img) && NonNegative(k) {
      var n := |k|;
      forall i | 0 <= i < n
        ensures 0.0 <= RowSums(img, x, y, k, c)[i] <= 255.0 * RowWeights(k)[i]
      {
        RowBound(img, x, y, k, c, i);
      }
      SumBound(RowSums(img, x, y, k, c), RowWeights(k), n);
    }
  }

  lemma RowBound(img: Image, x: int, y: int, k: Kernel, c: nat, i: nat)
    requires Square(k) && ReadsDefined(img, x, y, |k|) && c < 3 && i < |k|
    requires ChannelRange(img) && NonNegative(k)
    ensures 0.0 <= RowSum(img, x, y, k, c, i) <= 255.0 * Sum(k[i], |k[i]|)
  {
    var n := |k|;
    var v := RowReads(img, x, y, n, c, i);
    forall j | 0 <= j < n
      ensures 0.0 <= v[j] <= 255.0 && 0.0 <= k[i][j]
    {
      assert 0 <= TapIndex(img, x, y, n, i, j) + c < |img.pixels|;
    }
    DotBound(v, k[i], n);
  }

  // ---------------------------------------------------------- tap geometry

  /**
   * For an even kernel the taps are lopsided: the ten taps of a 10-by-10
   * kernel run from c - 5 to c + 4.  For an odd kernel they are symmetric.
   */
  lemma TapSpan(c: int, n: nat)
    requires n >= 1
    ensures Tap(c, 0, n) == c - n / 2
    ensures n % 2 == 0 ==> Tap(c, n - 1, n) == c + n / 2 - 1
    ensures n % 2 == 1 ==> Tap(c, n - 1, n) == c + n / 2
    ensures n == 10 ==> forall i | 0 <= i < n :: c - 5 <= Tap(c, i, n) <= c + 4
  {
  }

  /**
   * No per-coordinate clamping: a tap one column left of the image reads the
   * last pixel of the row above, and a tap one column right of it reads the
   * first pixel of the row below, whenever that flat index is in range.
   */
  lemma WrapsToAdjacentRow(img: Image, yLoc: int, offset: int)
    requires img.Valid() && img.width >= 1
    ensures 1 <= yLoc < img.height && IndexOf(img.width, img.width - 1, yLoc - 1) <= |img.pixels| - offset ==>
      ReadIndex(img, -1, yLoc, offset) == IndexOf(img.width, img.width - 1, yLoc - 1)
    ensures 0 <= yLoc && yLoc + 1 < img.height && IndexOf(img.width, 0, yLoc + 1) <= |img.pixels| - offset ==>
      ReadIndex(img, img.width, yLoc, offset) == IndexOf(img.width, 0, yLoc + 1)
  {
    var w := img.width;
    assert (w * yLoc + -1) * 4 == ((yLoc - 1) * w + (w - 1)) * 4;
    assert (w * yLoc + w) * 4 == ((yLoc + 1) * w + 0) * 4;
    if 1 <= yLoc < img.height {
      IndexInRange(w, img.height, w - 1, yLoc - 1);
    }
    if 0 <= yLoc && yLoc + 1 < img.height {
      IndexInRange(w, img.height, 0, yLoc + 1);
    }
  }

  /**
   * The clamp bound len - offset is not a multiple of 4.  With offset 5 any
   * tap whose row-major index passes it reads at len - 5, the alpha of the
   * second-last pixel, as its red; green and blue then come from the last
   * pixel's red and green.
   */
  lemma ClampedTopIsMisaligned(img: Image, xLoc: int, yLoc: int)
    requires img.Valid() && img.width * img.height >= 2
    requires (img.width * yLoc + xLoc) * 4 > |img.pixels| - 5
    ensures ReadIndex(img, xLoc, yLoc, 5) == 4 * (img.width * img.height - 2) + 3
    ensures ReadIndex(img, xLoc, yLoc, 5) % 4 == 3
  {
  }

  /**
   * Consequence for a 10-by-10 kernel: at the bottom-right pixel the centre
   * tap (5, 5), the pixel itself, already reads the alpha of the second-last
   * pixel as red.
   */
  lemma BottomRightReadsAlphaAsRed(img: Image)
    requires img.Valid() && img.width >= 1 && img.height >= 1 && img.width * img.height >= 2
    ensures TapIndex(img, img.width - 1, img.height - 1, 10, 5, 5) == 4 * (img.width * img.height - 2) + 3
  {
    var w, h := img.width, img.height;
    assert Tap(w - 1, 5, 10) == w - 1 && Tap(h - 1, 5, 10) == h - 1;
    assert (w * (h - 1) + (w - 1)) * 4 == |img.pixels| - 4;
    ClampedTopIsMisaligned(img, w - 1, h - 1);
  }

  // ------------------------------------------------- reference definition

  /** Every tap of an n-tap kernel at (x, y) lies on the image, below the clamp bound. */
  predicate TapsInterior(img: Image, x: int, y: int, n: nat)
  {
    forall i, j | 0 <= i < n && 0 <= j < n ::
      InBounds(img, Tap(x, i, n), Tap(y, j, n)) &&
      IndexOf(img.width, Tap(x, i, n), Tap(y, j, n)) <= |img.pixels| - n / 2
  }

  /** Channel c of the n tap pixels of kernel row i, in order of j. */
  function RefRow(img: Image, x: int, y: int, n: nat, c: nat, i: nat): (v: seq<real>)
    ensures |v| == n
  {
    seq(n, j => Chan(Px(img, Tap(x, i, n), Tap(y, j, n)), c))
  }

  /** Reference sum of kernel row i over pixel coordinates: the sum over j of channel c of the tap pixel times k[i][j]. */
  function RefRowSum(img: Image, x: int, y: int, k: Kernel, c: nat, i: nat): real
    requires Square(k) && i < |k|
  {
    Dot(RefRow(img, x, y, |k|, c, i), k[i], |k|)
  }

  function RefRowSums(img: Image, x: int, y: int, k: Kernel, c: nat): (s: seq<real>)
    requires Square(k)
    ensures |s| == |k|
  {
    seq(|k|, i requires 0 <= i < |k| => RefRowSum(img, x, y, k, c, i))
  }

  function RefKernelSum(img: Image, x: int, y: int, k: Kernel, c: nat): real
    requires Square(k)
  {
    Sum(RefRowSums(img, x, y, k, c), |k|)
  }

  /** Interior taps read whole, aligned pixels. */
  lemma InteriorReadsDefined(img: Image, x: int, y: int, n: nat)
    requires img.Valid() && TapsInterior(img, x, y, n)
    ensures ReadsDefined(img, x, y, n)
    ensures forall i, j | 0 <= i < n && 0 <= j < n ::
      TapIndex(img, x, y, n, i, j) == IndexOf(img.width, Tap(x, i, n), Tap(y, j, n))
  {
    forall i, j | 0 <= i < n && 0 <= j < n
      ensures TapIndex(img, x, y, n, i, j) == IndexOf(img.width, Tap(x, i, n), Tap(y, j, n))
      ensures TapIndex(img, x, y, n, i, j) + 2 < |img.pixels|
    {
      IndexInRange(img.width, img.height, Tap(x, i, n), Tap(y, j, n));
    }
  }

  /** An interior tap reads channel c of its own pixel. */
  lemma InteriorTap(img: Image, x: int, y: int, n: nat, i: int, j: int, c: nat)
    requires img.Valid() && TapsInterior(img, x, y, n)
    requires 0 <= i < n && 0 <= j < n && c < 3
    ensures 0 <= TapIndex(img, x, y, n, i, j) + c < |img.pixels|
    ensures img.pixels[TapIndex(img, x, y, n, i, j) + c] == Chan(Px(img, Tap(x, i, n), Tap(y, j, n)), c)
  {
    var tx, ty := Tap(x, i, n), Tap(y, j, n);
    assert InBounds(img, tx, ty) && IndexOf(img.width, tx, ty) <= |img.pixels| - n / 2;
    IndexInRange(img.width, img.height, tx, ty);
    assert TapIndex(img, x, y, n, i, j) == IndexOf(img.width, tx, ty);
  }

  /** Away from the borders a row of taps reads exactly the tap pixels' channel c. */
  lemma InteriorRow(img: Image, x: int, y: int, k: Kernel, c: nat, i: nat)
    requires img.Valid() && Square(k) && TapsInterior(img, x, y, |k|) && ReadsDefined(img, x, y, |k|)
    requires c < 3 && i < |k|
    ensures RowSum(img, x, y, k, c, i) == RefRowSum(img, x, y, k, c, i)
  {
    var n := |k|;
    forall j | 0 <= j < n
      ensures RowReads(img, x, y, n, c, i)[j] == RefRow(img, x, y, n, c, i)[j]
    {
      InteriorTap(img, x, y, n, i, j, c);
    }
    assert RowReads(img, x, y, n, c, i) == RefRow(img, x, y, n, c, i);
  }

  lemma InteriorKernel(img: Image, x: int, y: int, k: Kernel, c: nat)
    requires img.Valid() && Square(k) && TapsInterior(img, x, y, |k|) && ReadsDefined(img, x, y, |k|)
    requires c < 3
    ensures KernelSum(img, x, y, k, c) == RefKernelSum(img, x, y, k, c)
  {
    forall i | 0 <= i < |k|
      ensures RowSums(img, x, y, k, c)[i] == RefRowSums(img, x, y, k, c)[i]
    {
      InteriorRow(img, x, y, k, c, i);
    }
    assert RowSums(img, x, y, k, c) == RefRowSums(img, x, y, k, c);
  }

  /**
   * Away from the borders the convolution is the textbook weighted sum:
   * channel c of the result is the sum of k[i][j] times channel c of pixel
   * (x + i - offset, y + j - offset).
   */
  lemma InteriorConvolution(img: Image, x: int, y: int, k: Kernel)
    requires img.Valid() && Square(k) && TapsInterior(img, x, y, |k|)
    ensures ReadsDefined(img, x, y, |k|)
    ensures Convolve(img, x, y, k) ==
      Rgb(RefKernelSum(img, x, y, k, 0), RefKernelSum(img, x, y, k, 1), RefKernelSum(img, x, y, k, 2))
  {
    InteriorReadsDefined(img, x, y, |k|);
    InteriorKernel(img, x, y, k, 0);
    InteriorKernel(img, x, y, k, 1);
    InteriorKernel(img, x, y, k, 2);
  }

  /** The 1-by-1 kernel [[1]] returns the pixel's own R, G, B. */
  lemma UnitKernelIsIdentity(img: Image, x: int, y: int)
    requires img.Valid() && InBounds(img, x, y)
    ensures ReadsDefined(img, x, y, 1)
    ensures Convolve(img, x, y, [[1.0]]) == Rgb(Px(img, x, y).r, Px(img, x, y).g, Px(img, x, y).b)
  {
    IndexInRange(img.width, img.height, x, y);
    assert TapsInterior(img, x, y, 1) by {
      assert Tap(x, 0, 1) == x && Tap(y, 0, 1) == y;
    }
    var k: Kernel := [[1.0]];
    InteriorConvolution(img, x, y, k);
    UnitKernelChannel(img, x, y, 0);
    UnitKernelChannel(img, x, y, 1);
    UnitKernelChannel(img, x, y, 2);
  }

  /** The reference sum of [[1]] is channel c of the pixel itself. */
  lemma UnitKernelChannel(img: Image, x: int, y: int, c: nat)
    ensures RefKernelSum(img, x, y, [[1.0]], c) == Chan(Px(img, x, y), c)
  {
    var k: Kernel := [[1.0]];
    var v := RefRow(img, x, y, 1, c, 0);
    assert Tap(x, 0, 1) == x && Tap(y, 0, 1) == y;
    assert v[0] == Chan(Px(img, x, y), c);
    assert RefRowSum(img, x, y, k, c, 0) == Dot(v, k[0], 1) == v[0] * 1.0;
    assert RefKernelSum(img, x, y, k, c) == Sum(RefRowSums(img, x, y, k, c), 1) == RefRowSum(img, x, y, k, c, 0);
  }

  // ---------------------------------------------------------- alpha frame

  /** Two buffers of one length that differ at most in alpha entries. */
  predicate SameColour(a: Image, b: Image)
  {
    a.width == b.width && |a.pixels| == |b.pixels| &&
    forall k | 0 <= k < |a.pixels| && k % 4 != 3 :: a.pixels[k] == b.pixels[k]
  }

  /** Tap indices depend on an image only through its width and buffer length. */
  lemma SameTaps(a: Image, b: Image, x: int, y: int, n: nat)
    requires a.width == b.width && |a.pixels| == |b.pixels|
    ensures forall i, j :: TapIndex(a, x, y, n, i, j) == TapIndex(b, x, y, n, i, j)
    ensures ReadsDefined(a, x, y, n) ==> ReadsDefined(b, x, y, n)
  {
  }

  /** A row of taps reads the same R, G or B values from two images differing only in alpha. */
  lemma AlphaFrameRow(a: Image, b: Image, x: int, y: int, k: Kernel, c: nat, i: nat)
    requires SameColour(a, b) && Square(k) && ReadsDefined(a, x, y, |k|) && ReadsDefined(b, x, y, |k|)
    requires forall i, j | 0 <= i < |k| && 0 <= j < |k| :: TapIndex(a, x, y, |k|, i, j) % 4 == 0
    requires c < 3 && i < |k|
    ensures RowSum(a, x, y, k, c, i) == RowSum(b, x, y, k, c, i)
  {
    var n := |k|;
    forall j | 0 <= j < n
      ensures RowReads(a, x, y, n, c, i)[j] == RowReads(b, x, y, n, c, i)[j]
    {
      var t := TapIndex(a, x, y, n, i, j);
      assert t == TapIndex(b, x, y, n, i, j);
      AlignedChannel(t, c);
    }
    assert RowReads(a, x, y, n, c, i) == RowReads(b, x, y, n, c, i);
  }

  lemma AlphaFrameKernel(a: Image, b: Image, x: int, y: int, k: Kernel, c: nat)
    requires SameColour(a, b) && Square(k) && ReadsDefined(a, x, y, |k|) && ReadsDefined(b, x, y, |k|)
    requires forall i, j | 0 <= i < |k| && 0 <= j < |k| :: TapIndex(a, x, y, |k|, i, j) % 4 == 0
    requires c < 3
    ensures KernelSum(a, x, y, k, c) == KernelSum(b, x, y, k, c)
  {
    forall i | 0 <= i < |k|
      ensures RowSums(a, x, y, k, c)[i] == RowSums(b, x, y, k, c)[i]
    {
      AlphaFrameRow(a, b, x, y, k, c, i);
    }
    assert RowSums(a, x, y, k, c) == RowSums(b, x, y, k, c);
  }

  /**
   * While every tap index is pixel-aligned, the result does not depend on
   * alpha: two images that differ only in alpha convolve alike.
   */
  lemma ConvolveIgnoresAlpha(a: Image, b: Image, x: int, y: int, k: Kernel)
    requires SameColour(a, b) && Square(k) && ReadsDefined(a, x, y, |k|)
    requires forall i, j | 0 <= i < |k| && 0 <= j < |k| :: TapIndex(a, x, y, |k|, i, j) % 4 == 0
    ensures ReadsDefined(b, x, y, |k|)
    ensures Convolve(a, x, y, k) == Convolve(b, x, y, k)
  {
    SameTaps(a, b, x, y, |k|);
    AlphaFrameKernel(a, b, x, y, k, 0);
    AlphaFrameKernel(a, b, x, y, k, 1);
    AlphaFrameKernel(a, b, x, y, k, 2);
  }
}

=== FILE: pixel_filters.dfy ===
/**
 * The per-pixel filters of filters.js: `invertFilter`, `grayscaleFilter` and
 * `RGBFilter`.  Each builds a fresh image of the input's size and fills every
 * pixel from the input pixel at the same coordinates.
 */
module PixelFilters {
  import opened Raster

  // ---------------------------------------------------------------- invert

  function InvertPixel(p: Pixel): Pixel
  {
    Pixel(255.0 - p.r, 255.0 - p.g, 255.0 - p.b, p.a)
  }

  /** `invertFilter`: R, G, B become 255 - c; alpha is copied. */
  function Invert(img: Image): (r: Image)
    ensures r.width == img.width && r.height == img.height && r.Valid()
    ensures forall x, y | InBounds(img, x, y) ::
      Px(r, x, y).r + Px(img, x, y).r == 255.0 &&
      Px(r, x, y).g + Px(img, x, y).g == 255.0 &&
      Px(r, x, y).b + Px(img, x, y).b == 255.0 &&
      Px(r, x, y).a == Px(img, x, y).a
  {
    MapPixels(img, InvertPixel)
  }

  /** Inverting twice gives back the image. */
  lemma InvertInvolution(img: Image)
    requires img.Valid()
    ensures Invert(Invert(img)) == img
  {
    var once := Invert(img);
    var twice := Invert(once);
    forall x, y | InBounds(twice, x, y)
      ensures Px(twice, x, y) == Px(img, x, y)
    {
      assert InBounds(once, x, y);
    }
    Extensionality(twice, img);
  }

  /** Inversion keeps every channel of a p5 image inside [0, 255]. */
  lemma InvertKeepsRange(img: Image)
    requires img.Valid() && ChannelRange(img)
    ensures ChannelRange(Invert(img))
  {
    var r := Invert(img);
    forall k | 0 <= k < |r.pixels|
      ensures 0.0 <= r.pixels[k] <= 255.0
    {
      PxChannel(r, k);
      var x, y := (k / 4) % r.width, (k / 4) / r.width;
      IndexInRange(img.width, img.height, x, y);
      var i := IndexOf(img.width, x, y);
      assert 0.0 <= img.pixels[i] <= 255.0 && 0.0 <= img.pixels[i + 1] <= 255.0;
      assert 0.0 <= img.pixels[i + 2] <= 255.0 && 0.0 <= img.pixels[i + 3] <= 255.0;
    }
  }

  // ------------------------------------------------------------- grayscale

  /** The brightness factor grayscaleFilter applies to the channel average. */
  const Brightness: real := 1.2

  /** The grey level of one pixel: the brightened average, capped at 255. */
  function GrayLevel(p: Pixel): real
  {
    var avg := (p.r + p.g + p.b) / 3.0 * Brightness;
    if avg > 255.0 then 255.0 else avg
  }

  function GrayPixel(p: Pixel): Pixel
  {
    var v := GrayLevel(p);
    Pixel(v, v, v, p.a)
  }

  /**
   * `grayscaleFilter`: R, G and B all receive min(255, 0.4 * (R + G + B)),
   * which is 1.2 times the channel average capped at 255; alpha is copied.
   */
  function Grayscale(img: Image): (r: Image)
    ensures r.width == img.width && r.height == img.height && r.Valid()
    ensures forall x, y | InBounds(img, x, y) ::
      var q, p := Px(r, x, y), Px(img, x, y);
      q.r == q.g == q.b && q.a == p.a &&
      q.r <= 255.0 && q.r <= (p.r + p.g + p.b) * 0.4 &&
      (q.r == 255.0 || q.r == (p.r + p.g + p.b) * 0.4)
  {
    MapPixels(img, GrayPixel)
  }

  /** The grayscale of a p5 image is again a valid p5 image: every channel in [0, 255]. */
  lemma GrayscaleKeepsRange(img: Image)
    requires img.Valid() && ChannelRange(img)
    ensures ChannelRange(Grayscale(img))
  {
    var r := Grayscale(img);
    forall k | 0 <= k < |r.pixels|
      ensures 0.0 <= r.pixels[k] <= 255.0
    {
      PxChannel(r, k);
      var x, y := (k / 4) % r.width, (k / 4) / r.width;
      IndexInRange(img.width, img.height, x, y);
      var i := IndexOf(img.width, x, y);
      assert 0.0 <= img.pixels[i] <= 255.0 && 0.0 <= img.pixels[i + 1] <= 255.0;
      assert 0.0 <= img.pixels[i + 2] <= 255.0 && 0.0 <= img.pixels[i + 3] <= 255.0;
    }
  }

  // ------------------------------------------------------------------- RGB

  /** The channel RGBFilter keeps; the source passes 'red', 'green' or 'blue'. */
  datatype Channel = Red | Green | Blue

  function ChannelIndex(ch: Channel): int
  {
    match ch
    case Red => 0
    case Green => 1
    case Blue => 2
  }

  /** The threshold argument: `null`, or a number (the slider value). */
  datatype Threshold = Null | Given(t: real)

  /** JavaScript truthiness of the threshold: null and 0 are both falsy. */
  predicate Active(th: Threshold)
  {
    th.Given? && th.t != 0.0
  }

  /** The binarisation `v > t ? 255 : 0`. */
  function Binarize(v: real, t: real): (b: real)
    ensures b == 255.0 || b == 0.0
    ensures b == 255.0 <==> v > t
  {
    if v > t then 255.0 else 0.0
  }

  function ChannelPixel(p: Pixel, ch: Channel, th: Threshold): Pixel
  {
    var r, g, b :=
      if Active(th) then Binarize(p.r, th.t) else p.r,
      if Active(th) then Binarize(p.g, th.t) else p.g,
      if Active(th) then Binarize(p.b, th.t) else p.b;
    Pixel(if ch == Red then r else 0.0,
          if ch == Green then g else 0.0,
          if ch == Blue then b else 0.0,
          p.a)
  }

  /**
   * `RGBFilter`: the two other colour channels become 0 and alpha is copied;
   * the kept channel is copied, or, under a truthy threshold t, becomes 255
   * exactly when it exceeds t and 0 otherwise.
   */
  function ChannelFilter(img: Image, ch: Channel, th: Threshold): (r: Image)
    ensures r.width == img.width && r.height == img.height && r.Valid()
    ensures forall x, y, c | InBounds(img, x, y) && 0 <= c < 3 && c != ChannelIndex(ch) ::
      Chan(Px(r, x, y), c) == 0.0
    ensures forall x, y | InBounds(img, x, y) :: Px(r, x, y).a == Px(img, x, y).a
    ensures !Active(th) ==> forall x, y | InBounds(img, x, y) ::
      Chan(Px(r, x, y), ChannelIndex(ch)) == Chan(Px(img, x, y), ChannelIndex(ch))
    ensures Active(th) ==> forall x, y | InBounds(img, x, y) ::
      (Chan(Px(r, x, y), ChannelIndex(ch)) == 0.0 || Chan(Px(r, x, y), ChannelIndex(ch)) == 255.0) &&
      (Chan(Px(r, x, y), ChannelIndex(ch)) == 255.0 <==> Chan(Px(img, x, y), ChannelIndex(ch)) > th.t)
  {
    MapPixels(img, p => ChannelPixel(p, ch, th))
  }

  /** A threshold of 0 is falsy, so it leaves the kept channel unthresholded. */
  lemma ZeroThresholdIsNoThreshold(img: Image, ch: Channel)
    requires img.Valid()
    ensures ChannelFilter(img, ch, Given(0.0)) == ChannelFilter(img, ch, Null)
  {
    var a, b := ChannelFilter(img, ch, Given(0.0)), ChannelFilter(img, ch, Null);
    forall x, y | InBounds(a, x, y)
      ensures Px(a, x, y) == Px(b, x, y)
    {
      assert InBounds(img, x, y);
    }
    Extensionality(a, b);
  }

  /**
   * Thresholding composes with channel isolation: filtering with a truthy
   * threshold equals isolating the channel and then binarising the kept
   * channel of the result.
   */
  lemma ThresholdIsIsolateThenBinarize(img: Image, ch: Channel, t: real)
    requires img.Valid() && t != 0.0
    ensures var iso, thr := ChannelFilter(img, ch, Null), ChannelFilter(img, ch, Given(t));
      forall x, y | InBounds(img, x, y) ::
        Chan(Px(thr, x, y), ChannelIndex(ch)) == Binarize(Chan(Px(iso, x, y), ChannelIndex(ch)), t) &&
        Px(thr, x, y).a == Px(iso, x, y).a
  {
  }

  /** The all-white 2x2 image of the worked example. */
  function White2x2(): (img: Image)
    ensures img.Valid() && img.width == 2 && img.height == 2
  {
    Image(2, 2, seq(16, k => 255.0))
  }

  /**
   * Worked example: on an all-white 2x2 image, invert gives opaque black,
   * grayscale stays white (1.2 * 255 is capped at 255), and the red channel
   * filter gives opaque red.
   */
  lemma WhiteImageExample(x: int, y: int)
    requires 0 <= x < 2 && 0 <= y < 2
    ensures Px(Invert(White2x2()), x, y) == Pixel(0.0, 0.0, 0.0, 255.0)
    ensures Px(Grayscale(White2x2()), x, y) == Pixel(255.0, 255.0, 255.0, 255.0)
    ensures Px(ChannelFilter(White2x2(), Red, Null), x, y) == Pixel(255.0, 0.0, 0.0, 255.0)
  {
    var img := White2x2();
    IndexInRange(2, 2, x, y);
    assert Px(img, x, y) == Pixel(255.0, 255.0, 255.0, 255.0);
  }
}

=== FILE: pixelate.dfy ===
/**
 * `pixelatedFilter(img)` of filters.js.  It starts from the grayscale of the
 * image, lists 5x5 blocks of buffer indices (x outer, y inner, both loops
 * bounded by the image WIDTH), averages the ORIGINAL image's channels over
 * each block with Math.round, and paints each block's four averages onto its
 * listed indices, block after block.
 *
 * Indices past the end of the buffer read `undefined`, which turns a block's
 * averages into NaN; the pixel buffer stores NaN as 0 and drops writes past
 * its end.
 */
module Pixelate {
  import opened Raster
  import opened PixelFilters

  const BlockSize: nat := 5

  /**
   * Iterations of `for (v = 0; v < width; v += 5)`: the last step taken is
   * below width and the next one would not be.
   */
  function Steps(width: nat): (n: nat)
    ensures BlockSize * n >= width
    ensures n > 0 ==> BlockSize * (n - 1) < width
  {
    (width + BlockSize - 1) / BlockSize
  }

  /** Position of entry (i, j) of a block in its index list: i outer, j inner. */
  function Slot(i: int, j: int): int
  {
    BlockSize * i + j
  }

  /** The 25 indices a block at (ox, oy) records: (ox + i + (oy + j) * width) * 4. */
  function BlockIndices(width: int, ox: int, oy: int): (s: seq<int>)
    ensures |s| == BlockSize * BlockSize
  {
    seq(BlockSize * BlockSize, t => (ox + t / BlockSize + (oy + t % BlockSize) * width) * 4)
  }

  /** The running sum of channel c over the first m recorded indices. */
  function Total(img: Image, idxs: seq<int>, c: int, m: nat): Num
    requires m <= |idxs|
  {
    if m == 0 then Finite(0.0)
    else
      var s, v := Total(img, idxs, c, m - 1), Read(img, idxs[m - 1] + c);
      if s.Finite? && v.Finite? then Finite(s.v + v.v) else NaN
  }

  /**
   * `Math.round(total / block.length)` for channel c: NaN exactly when some
   * read falls outside the buffer, and otherwise a whole number in [0, 255]
   * for a p5 image.
   */
  function Mean(img: Image, idxs: seq<int>, c: int): (r: Num)
    requires |idxs| > 0
    ensures r.NaN? <==> exists t | 0 <= t < |idxs| :: !(0 <= idxs[t] + c < |img.pixels|)
    ensures r.Finite? && ChannelRange(img) ==> 0.0 <= r.v <= 255.0
  {
    var m := |idxs|;
    var t := Total(img, idxs, c, m);
    TotalNaN(img, idxs, c, m);
    TotalRange(img, idxs, c, m);
    if t.NaN? then NaN
    else
      QuotientBound(t.v, m as real);
      Finite(Round(t.v / (m as real)) as real)
  }

  /** A block's recorded indices and the four averages painted onto them. */
  datatype Stamp = Stamp(indices: seq<int>, color: Pixel)

  function BlockStamp(img: Image, ox: int, oy: int): Stamp
  {
    var idxs := BlockIndices(img.width, ox, oy);
    Stamp(idxs, Pixel(Stored(Mean(img, idxs, 0)), Stored(Mean(img, idxs, 1)),
                      Stored(Mean(img, idxs, 2)), Stored(Mean(img, idxs, 3))))
  }

  /** The top-left pixel of a block: the loop variables x and y when it is pushed. */
  datatype Origin = Origin(x: int, y: int)

  /**
   * The inner loop `for (y = ...; y < img.width; y += 5)` from y at block
   * column x: one block per step, pushed in order.
   */
  function InnerOrigins(width: nat, x: int, y: nat): seq<Origin>
    decreases width - y
  {
    if y >= width then [] else [Origin(x, y)] + InnerOrigins(width, x, y + BlockSize)
  }

  /**
   * The outer loop `for (x = ...; x < img.width; x += 5)` from x: each step
   * pushes the blocks of a whole inner loop started at y = 0.
   */
  function OuterOrigins(width: nat, x: nat): seq<Origin>
    decreases width - x
  {
    if x >= width then [] else InnerOrigins(width, x, 0) + OuterOrigins(width, x + BlockSize)
  }

  /**
   * The blocks in the order the two loops push them.  With n = Steps(width)
   * steps for BOTH loops, block b has origin (5 (b / n), 5 (b % n)); its
   * averages are taken over the original image.
   */
  function Stamps(img: Image): (s: seq<Stamp>)
    ensures |s| == Steps(img.width) * Steps(img.width)
    ensures forall b | 0 <= b < |s| ::
      s[b] == BlockStamp(img, BlockSize * (b / Steps(img.width)), BlockSize * (b % Steps(img.width)))
  {
    var o := OuterOrigins(img.width, 0);
    OuterOriginsAt(img.width, 0);
    seq(|o|, b requires 0 <= b < |o| => BlockStamp(img, o[b].x, o[b].y))
  }

  /** The inner loop started at y = 5 j0 visits y = 5 j0, 5 (j0 + 1), ... while below the width. */
  lemma {:induction false} InnerOriginsAt(width: nat, x: int, j0: nat)
    requires j0 <= Steps(width)
    ensures |InnerOrigins(width, x, BlockSize * j0)| == Steps(width) - j0
    ensures forall t | 0 <= t < Steps(width) - j0 ::
      InnerOrigins(width, x, BlockSize * j0)[t] == Origin(x, BlockSize * (j0 + t))
    decreases Steps(width) - j0
  {
    var n := Steps(width);
    if j0 < n {
      assert BlockSize * j0 <= BlockSize * (n - 1) < width;
      InnerOriginsAt(width, x, j0 + 1);
      assert BlockSize * j0 + BlockSize == BlockSize * (j0 + 1);
    } else {
      assert BlockSize * j0 >= BlockSize * n >= width;
    }
  }

  /**
   * The outer loop started at x = 5 i0 pushes block b at origin
   * (5 (i0 + b / n), 5 (b % n)): n blocks per outer step.
   */
  lemma {:induction false} OuterOriginsAt(width: nat, i0: nat)
    requires i0 <= Steps(width)
    ensures |OuterOrigins(width, BlockSize * i0)| == (Steps(width) - i0) * Steps(width)
    ensures forall b | 0 <= b < (Steps(width) - i0) * Steps(width) ::
      OuterOrigins(width, BlockSize * i0)[b] ==
        Origin(BlockSize * (i0 + b / Steps(width)), BlockSize * (b % Steps(width)))
    decreases Steps(width) - i0
  {
    var n := Steps(width);
    if i0 < n {
      var x := BlockSize * i0;
      assert x <= BlockSize * (n - 1) < width;
      var col, rest := InnerOrigins(width, x, 0), OuterOrigins(width, x + BlockSize);
      assert OuterOrigins(width, x) == col + rest;
      InnerOriginsAt(width, x, 0);
      assert x + BlockSize == BlockSize * (i0 + 1);
      OuterOriginsAt(width, i0 + 1);
      OuterLength(n, i0);
      forall b | 0 <= b < (n - i0) * n
        ensures (col + rest)[b] == Origin(BlockSize * (i0 + b / n), BlockSize * (b % n))
      {
        if b < n {
          DivModUnique(0, b, n);
          assert (col + rest)[b] == col[b];
        } else {
          ShiftBlock(b, n);
          assert (col + rest)[b] == rest[b - n];
        }
      }
    } else {
      assert BlockSize * i0 >= BlockSize * n >= width;
    }
  }

  lemma OuterLength(n: int, i0: int)
    ensures n + (n - (i0 + 1)) * n == (n - i0) * n
  {
  }

  /** Block b >= n is block b - n of the next outer step. */
  lemma ShiftBlock(b: int, n: int)
    requires 0 < n <= b
    ensures b / n == (b - n) / n + 1 && b % n == (b - n) % n
  {
    var q, r := (b - n) / n, (b - n) % n;
    DivModSplit(b - n, n);
    assert b == (q + 1) * n + r;
    DivModUnique(q + 1, r, n);
  }

  // -------------------------------------------------------------- painting

  /** Paints the four channels of one recorded index. */
  function PaintPixel(buf: seq<real>, idx: int, color: Pixel): (r: seq<real>)
    ensures |r| == |buf|
  {
    Write(Write(Write(Write(buf, idx, color.r), idx + 1, color.g), idx + 2, color.b), idx + 3, color.a)
  }

  /** `block.indices.forEach(...)`: paints every recorded index in order. */
  function PaintBlock(buf: seq<real>, idxs: seq<int>, color: Pixel): (r: seq<real>)
    ensures |r| == |buf|
  {
    if |idxs| == 0 then buf
    else PaintPixel(PaintBlock(buf, idxs[..|idxs| - 1], color), idxs[|idxs| - 1], color)
  }

  /**
   * The painting loop over all blocks, in order.  Last write wins: when the
   * recorded indices are aligned, index k ends with the value PaintedValue
   * names.
   */
  function PaintAll(buf: seq<real>, stamps: seq<Stamp>): (r: seq<real>)
    ensures |r| == |buf|
    ensures Aligned(stamps) ==> forall k {:trigger PaintedValue(buf, stamps, k)} | 0 <= k < |buf| :: r[k] == PaintedValue(buf, stamps, k)
  {
    if |stamps| == 0 then buf
    else
      var pre, last := stamps[..|stamps| - 1], stamps[|stamps| - 1];
      var p := PaintAll(buf, pre);
      AlignedPrefix(stamps);
      PaintBlockAll(p, last.indices, last.color);
      LastListingStep(buf, stamps);
      PaintBlock(p, last.indices, last.color)
  }

  /**
   * Channel k % 4 of the colour of the last block listing the pixel index
   * k - k % 4, or buf[k] when no block lists it.
   */
  function PaintedValue(buf: seq<real>, stamps: seq<Stamp>, k: int): real
    requires 0 <= k < |buf|
  {
    var l := LastListing(stamps, k - k % 4);
    if l < 0 then buf[k] else Chan(stamps[l].color, k % 4)
  }

  /** The last block whose list holds idx, or -1 when none does. */
  function LastListing(stamps: seq<Stamp>, idx: int): (r: int)
    ensures -1 <= r < |stamps|
    ensures r >= 0 ==> idx in stamps[r].indices
    ensures forall b | r < b < |stamps| :: idx !in stamps[b].indices
  {
    if |stamps| == 0 then -1
    else if idx in stamps[|stamps| - 1].indices then |stamps| - 1
    else LastListing(stamps[..|stamps| - 1], idx)
  }

  /** Every recorded index is a non-negative multiple of 4. */
  predicate Aligned(stamps: seq<Stamp>)
  {
    forall b, t | 0 <= b < |stamps| && 0 <= t < |stamps[b].indices| ::
      stamps[b].indices[t] >= 0 && stamps[b].indices[t] % 4 == 0
  }

  lemma PaintPixelEffect(buf: seq<real>, idx: int, color: Pixel, i: int, c: int)
    requires idx % 4 == 0 && i % 4 == 0 && 0 <= c < 4 && 0 <= i + c < |buf|
    ensures PaintPixel(buf, idx, color)[i + c] == if i == idx then Chan(color, c) else buf[i + c]
  {
    if i != idx {
      AlignedApart(i, idx);
    }
  }

  lemma {:induction false} PaintBlockEffect(buf: seq<real>, idxs: seq<int>, color: Pixel, i: int, c: int)
    requires forall t | 0 <= t < |idxs| :: idxs[t] % 4 == 0
    requires i % 4 == 0 && 0 <= c < 4 && 0 <= i + c < |buf|
    ensures PaintBlock(buf, idxs, color)[i + c] == if i in idxs then Chan(color, c) else buf[i + c]
  {
    if |idxs| > 0 {
      var pre, last := idxs[..|idxs| - 1], idxs[|idxs| - 1];
      PaintBlockEffect(buf, pre, color, i, c);
      PaintPixelEffect(PaintBlock(buf, pre, color), last, color, i, c);
      assert idxs == pre + [last];
    }
  }

  /**
   * Last write wins, read per pixel and channel: channel c of the pixel at
   * index i holds the colour of the LAST block listing i when some block
   * does, and keeps its value otherwise.  This is PaintAll's contract at the
   * flat index i + c, in the form the pixel-level lemmas use.
   */
  lemma {:induction false} PaintAllEffect(buf: seq<real>, stamps: seq<Stamp>, i: int, c: int)
    requires Aligned(stamps) && i % 4 == 0 && 0 <= c < 4 && 0 <= i + c < |buf|
    ensures var l := LastListing(stamps, i);
      PaintAll(buf, stamps)[i + c] == if l < 0 then buf[i + c] else Chan(stamps[l].color, c)
  {
    AlignedChannel(i, c);
    assert PaintAll(buf, stamps)[i + c] == PaintedValue(buf, stamps, i + c);
  }

  /** Dropping the last block keeps the recorded indices aligned. */
  lemma AlignedPrefix(stamps: seq<Stamp>)
    requires |stamps| > 0
    ensures Aligned(stamps) ==> Aligned(stamps[..|stamps| - 1])
  {
    var pre := stamps[..|stamps| - 1];
    if Aligned(stamps) {
      forall b, t | 0 <= b < |pre| && 0 <= t < |pre[b].indices|
        ensures pre[b].indices[t] >= 0 && pre[b].indices[t] % 4 == 0
      {
        assert pre[b] == stamps[b];
      }
    }
  }

  /** PaintBlockEffect at every index of the buffer. */
  lemma PaintBlockAll(buf: seq<real>, idxs: seq<int>, color: Pixel)
    ensures (forall t | 0 <= t < |idxs| :: idxs[t] % 4 == 0) ==>
      forall k | 0 <= k < |buf| ::
        PaintBlock(buf, idxs, color)[k] == if k - k % 4 in idxs then Chan(color, k % 4) else buf[k]
  {
    if forall t | 0 <= t < |idxs| :: idxs[t] % 4 == 0 {
      forall k | 0 <= k < |buf|
        ensures PaintBlock(buf, idxs, color)[k] == if k - k % 4 in idxs then Chan(color, k % 4) else buf[k]
      {
        SplitIndex(k);
        PaintBlockEffect(buf, idxs, color, k - k % 4, k % 4);
      }
    }
  }

  /** The last block decides every index it lists; the others are decided by the earlier blocks. */
  lemma LastListingStep(buf: seq<real>, stamps: seq<Stamp>)
    requires |stamps| > 0
    ensures var pre, last := stamps[..|stamps| - 1], stamps[|stamps| - 1];
      forall k | 0 <= k < |buf| ::
        PaintedValue(buf, stamps, k) ==
        if k - k % 4 in last.indices then Chan(last.color, k % 4) else PaintedValue(buf, pre, k)
  {
    var pre, last := stamps[..|stamps| - 1], stamps[|stamps| - 1];
    forall k | 0 <= k < |buf|
      ensures PaintedValue(buf, stamps, k) ==
        if k - k % 4 in last.indices then Chan(last.color, k % 4) else PaintedValue(buf, pre, k)
    {
      var i := k - k % 4;
      if i !in last.indices {
        var l := LastListing(pre, i);
        assert LastListing(stamps, i) == l;
        if l >= 0 {
          assert stamps[l] == pre[l];
        }
      }
    }
  }

  lemma BlockAligned(width: nat, ox: nat, oy: nat)
    ensures forall t | 0 <= t < BlockSize * BlockSize ::
      BlockIndices(width, ox, oy)[t] >= 0 && BlockIndices(width, ox, oy)[t] % 4 == 0
  {
    forall t | 0 <= t < BlockSize * BlockSize
      ensures BlockIndices(width, ox, oy)[t] >= 0 && BlockIndices(width, ox, oy)[t] % 4 == 0
    {
      BlockIndexAt(width, ox, oy, t);
      IndexNonNegative(width, ox + t / BlockSize, oy + t % BlockSize);
    }
  }

  /** Block b's recorded indices, without its averages. */
  lemma StampIndices(img: Image, b: int)
    requires 0 <= b < |Stamps(img)|
    ensures Stamps(img)[b].indices ==
      BlockIndices(img.width, BlockSize * (b / Steps(img.width)), BlockSize * (b % Steps(img.width)))
  {
  }

  lemma StampAligned(img: Image, b: int)
    requires 0 <= b < |Stamps(img)|
    ensures forall t | 0 <= t < |Stamps(img)[b].indices| ::
      Stamps(img)[b].indices[t] >= 0 && Stamps(img)[b].indices[t] % 4 == 0
  {
    var n := Steps(img.width);
    assert n > 0;
    BlockCoordinates(b, n);
    var ox, oy := BlockSize * (b / n), BlockSize * (b % n);
    StampIndices(img, b);
    BlockAligned(img.width, ox, oy);
  }

  lemma BlockIndicesAligned(img: Image)
    ensures Aligned(Stamps(img))
  {
    forall b | 0 <= b < |Stamps(img)|
      ensures forall t | 0 <= t < |Stamps(img)[b].indices| ::
        Stamps(img)[b].indices[t] >= 0 && Stamps(img)[b].indices[t] % 4 == 0
    {
      StampAligned(img, b);
    }
  }

  // ---------------------------------------------------------------- filter

  /** The four channels at an aligned index of a painted buffer. */
  lemma PaintedQuad(buf: seq<real>, stamps: seq<Stamp>, i: int)
    requires Aligned(stamps) && i % 4 == 0 && 0 <= i && i + 3 < |buf|
    ensures var p, l := PaintAll(buf, stamps), LastListing(stamps, i);
      Pixel(p[i], p[i + 1], p[i + 2], p[i + 3]) ==
      if l < 0 then Pixel(buf[i], buf[i + 1], buf[i + 2], buf[i + 3]) else stamps[l].color
  {
    PaintAllEffect(buf, stamps, i, 0);
    PaintAllEffect(buf, stamps, i, 1);
    PaintAllEffect(buf, stamps, i, 2);
    PaintAllEffect(buf, stamps, i, 3);
  }

  /** Pixel (x, y) of a painted image: the last listing block's colour, else the base pixel. */
  lemma {:induction false} PaintedPx(base: Image, stamps: seq<Stamp>, x: int, y: int)
    requires base.Valid() && Aligned(stamps) && InBounds(base, x, y)
    ensures var r, l := Image(base.width, base.height, PaintAll(base.pixels, stamps)),
                        LastListing(stamps, IndexOf(base.width, x, y));
      Px(r, x, y) == if l < 0 then Px(base, x, y) else stamps[l].color
  {
    var r, i := Image(base.width, base.height, PaintAll(base.pixels, stamps)), IndexOf(base.width, x, y);
    PxAt(base, x, y);
    PxAt(r, x, y);
    PaintedQuad(base.pixels, stamps, i);
    if LastListing(stamps, i) < 0 {
      assert Px(r, x, y) == Px(base, x, y);
    } else {
      assert Px(r, x, y) == stamps[LastListing(stamps, i)].color;
    }
  }

  /**
   * `pixelatedFilter`: a pixel that no block lists keeps its grayscale
   * value; any other pixel takes the four averages of the last block
   * listing it.
   */
  function Pixelated(img: Image): (r: Image)
    requires img.Valid()
    ensures r.width == img.width && r.height == img.height && r.Valid()
    ensures forall x, y | InBounds(img, x, y) ::
      var l := LastListing(Stamps(img), IndexOf(img.width, x, y));
      Px(r, x, y) == if l < 0 then Px(Grayscale(img), x, y) else Stamps(img)[l].color
  {
    var gray := Grayscale(img);
    var s := Stamps(img);
    var r := Image(img.width, img.height, PaintAll(gray.pixels, s));
    BlockIndicesAligned(img);
    assert forall x, y | InBounds(img, x, y) ::
      var l := LastListing(s, IndexOf(img.width, x, y));
      Px(r, x, y) == if l < 0 then Px(gray, x, y) else s[l].color
    by {
      forall x, y | InBounds(img, x, y)
        ensures var l := LastListing(s, IndexOf(img.width, x, y));
          Px(r, x, y) == if l < 0 then Px(gray, x, y) else s[l].color
      {
        PaintedPx(gray, s, x, y);
      }
    }
    r
  }

  // ------------------------------------------------------------- averages

  lemma {:induction false} TotalRange(img: Image, idxs: seq<int>, c: int, m: nat)
    requires m <= |idxs|
    ensures ChannelRange(img) && Total(img, idxs, c, m).Finite? ==> 0.0 <= Total(img, idxs, c, m).v <= 255.0 * m as real
  {
    if m > 0 {
      TotalRange(img, idxs, c, m - 1);
    }
  }

  /** A block's sum is NaN exactly when one of its reads falls outside the buffer. */
  lemma {:induction false} TotalNaN(img: Image, idxs: seq<int>, c: int, m: nat)
    requires m <= |idxs|
    ensures Total(img, idxs, c, m).NaN? <==>
      exists t | 0 <= t < m :: !(0 <= idxs[t] + c < |img.pixels|)
  {
    if m > 0 {
      TotalNaN(img, idxs, c, m - 1);
      if !(0 <= idxs[m - 1] + c < |img.pixels|) {
        assert exists t | 0 <= t < m :: !(0 <= idxs[t] + c < |img.pixels|) by {
          var t := m - 1;
          assert !(0 <= idxs[t] + c < |img.pixels|);
        }
      }
    }
  }

  /**
   * A block average is NaN exactly when the block reads past the buffer
   * (painted as 0); otherwise, for a p5 image, it lies in [0, 255].
   */
  lemma MeanBehaviour(img: Image, idxs: seq<int>, c: int)
    requires ChannelRange(img) && |idxs| > 0
    ensures Mean(img, idxs, c).NaN? <==> exists t | 0 <= t < |idxs| :: !(0 <= idxs[t] + c < |img.pixels|)
    ensures 0.0 <= Stored(Mean(img, idxs, c)) <= 255.0
  {
    var m := |idxs|;
    TotalNaN(img, idxs, c, m);
    TotalRange(img, idxs, c, m);
    var t := Total(img, idxs, c, m);
    if t.Finite? {
      QuotientBound(t.v, m as real);
    }
  }

  /** A sum of m values in [0, 255], divided by m, lies in [0, 255]. */
  lemma QuotientBound(v: real, m: real)
    requires m > 0.0
    ensures 0.0 <= v <= 255.0 * m ==> 0.0 <= v / m <= 255.0
  {
  }

  /** Every colour a block paints is in [0, 255] when the image's channels are. */
  lemma StampColorRange(img: Image, b: int)
    requires ChannelRange(img) && 0 <= b < |Stamps(img)|
    ensures PixelRange(Stamps(img)[b].color)
  {
    var n := Steps(img.width);
    var idxs := BlockIndices(img.width, BlockSize * (b / n), BlockSize * (b % n));
    assert Stamps(img)[b].indices == idxs;
    MeanBehaviour(img, idxs, 0);
    MeanBehaviour(img, idxs, 1);
    MeanBehaviour(img, idxs, 2);
    MeanBehaviour(img, idxs, 3);
  }

  /** Pixelating a p5 image leaves every channel in [0, 255]. */
  lemma PixelatedKeepsRange(img: Image)
    requires img.Valid() && ChannelRange(img)
    ensures ChannelRange(Pixelated(img))
  {
    var r, g := Pixelated(img), Grayscale(img);
    var s := Stamps(img);
    GrayscaleKeepsRange(img);
    forall x, y | InBounds(r, x, y)
      ensures PixelRange(Px(r, x, y))
    {
      var l := LastListing(s, IndexOf(img.width, x, y));
      if l >= 0 {
        StampColorRange(img, l);
      } else {
        PxRange(g, x, y);
      }
    }
    RangeFromPixels(r);
  }

  // ------------------------------------------------------ block geometry

  /** Quotient and remainder of a block number below n * n are both below n. */
  lemma BlockCoordinates(b: int, n: int)
    requires 0 < n && 0 <= b < n * n
    ensures 0 <= b / n < n && 0 <= b % n < n
  {
    assert (b / n) * n <= b;
    assert (b / n - n) * n == (b / n) * n - n * n < 0;
  }

  /** b is its quotient by n times n plus its remainder. */
  lemma DivModSplit(b: int, n: int)
    requires n > 0
    ensures b == (b / n) * n + b % n
  {
  }

  /** Division by n undoes q * n + r for 0 <= r < n. */
  lemma DivModUnique(q: int, r: int, n: int)
    requires 0 <= r < n
    ensures (q * n + r) / n == q && (q * n + r) % n == r
  {
    var b := q * n + r;
    assert b == (b / n) * n + b % n;
    RowMajorUnique(n, r, q, b % n, b / n);
  }

  /** An index a block records is pixel (ox + i, oy + j) of the block for some i, j below 5. */
  lemma BlockEntry(width: int, ox: int, oy: int, idx: int) returns (i: int, j: int)
    requires idx in BlockIndices(width, ox, oy)
    ensures 0 <= i < BlockSize && 0 <= j < BlockSize
    ensures idx == IndexOf(width, ox + i, oy + j)
  {
    var idxs := BlockIndices(width, ox, oy);
    var t :| 0 <= t < |idxs| && idxs[t] == idx;
    i, j := t / BlockSize, t % BlockSize;
    BlockIndexAt(width, ox, oy, t);
  }

  /** The arithmetic behind ListedOnlyByHomeBlock. */
  lemma HomeArithmetic(n: int, b: int, x: int, y: int, i: int, j: int)
    requires 0 < n && 0 <= b < n * n && 0 <= x < BlockSize * n
    requires 0 <= i < BlockSize && 0 <= j < BlockSize
    requires IndexOf(BlockSize * n, x, y) == IndexOf(BlockSize * n, BlockSize * (b / n) + i, BlockSize * (b % n) + j)
    ensures x / BlockSize == b / n && y / BlockSize == b % n
  {
    var w := BlockSize * n;
    BlockCoordinates(b, n);
    assert BlockSize * (b / n) + i < w;
    RowMajorUnique(w, x, y, BlockSize * (b / n) + i, BlockSize * (b % n) + j);
  }

  /** When the width is a multiple of 5 the loops take exactly width / 5 steps. */
  lemma StepsExact(width: nat)
    requires width % BlockSize == 0
    ensures BlockSize * Steps(width) == width
  {
  }

  /** A cell (q, r) of an n-by-n grid has a number q * n + r below n * n. */
  lemma CellBelow(n: int, q: int, r: int)
    requires 0 <= q < n && 0 <= r < n
    ensures 0 <= q * n + r < n * n
  {
    assert q * n <= (n - 1) * n;
  }

  /**
   * For a width that is not a multiple of 5 the last block column wraps: on
   * an image 7 wide, block 2 (origin (5, 0)) records x = 5 + 3 at row 1,
   * which is pixel (1, 2) of block 0's cell, so block 2 repaints it.
   */
  lemma LastColumnWraps(img: Image)
    requires img.width == 7
    ensures |Stamps(img)| == 4
    ensures IndexOf(7, 1, 2) in Stamps(img)[0].indices
    ensures IndexOf(7, 1, 2) in Stamps(img)[2].indices
  {
    assert Steps(7) == 2;
    BlockSlot(7, 0, 0, 1, 2);
    BlockSlot(7, 5, 0, 3, 1);
  }

  /**
   * When the width is a multiple of 5, the pixel (X, Y) with X < width is
   * listed by at most one block: the one with origin (5 (X / 5), 5 (Y / 5)).
   */
  lemma ListedOnlyByHomeBlock(img: Image, b: int, x: int, y: int)
    requires img.width % BlockSize == 0 && 0 <= x < img.width
    requires 0 <= b < |Stamps(img)| && IndexOf(img.width, x, y) in Stamps(img)[b].indices
    ensures x / BlockSize == b / Steps(img.width) && y / BlockSize == b % Steps(img.width)
    ensures b == (x / BlockSize) * Steps(img.width) + y / BlockSize
  {
    var n := Steps(img.width);
    StepsExact(img.width);
    assert n > 0;
    StampIndices(img, b);
    InBlockIsHome(n, b, x, y);
  }

  /** In a grid of width 5n, a pixel that block b lists lies in block b's cell. */
  lemma InBlockIsHome(n: int, b: int, x: int, y: int)
    requires 0 < n && 0 <= b < n * n && 0 <= x < BlockSize * n
    requires IndexOf(BlockSize * n, x, y) in BlockIndices(BlockSize * n, BlockSize * (b / n), BlockSize * (b % n))
    ensures x / BlockSize == b / n && y / BlockSize == b % n
    ensures b == (x / BlockSize) * n + y / BlockSize
  {
    var w := BlockSize * n;
    var i, j := BlockEntry(w, BlockSize * (b / n), BlockSize * (b % n), IndexOf(w, x, y));
    HomeArithmetic(n, b, x, y, i, j);
    DivModSplit(b, n);
  }

  /** Block q * n + r lists every pixel (X, Y) with X / 5 == q and Y / 5 == r. */
  lemma BlockListsItsCell(img: Image, q: int, r: int, x: int, y: int)
    requires 0 <= q * Steps(img.width) + r < |Stamps(img)| && 0 <= r < Steps(img.width)
    requires x / BlockSize == q && y / BlockSize == r
    ensures IndexOf(img.width, x, y) in Stamps(img)[q * Steps(img.width) + r].indices
  {
    var n := Steps(img.width);
    DivModUnique(q, r, n);
    var ox, oy := BlockSize * q, BlockSize * r;
    assert Stamps(img)[q * n + r].indices == BlockIndices(img.width, ox, oy);
    BlockSlot(img.width, ox, oy, x % BlockSize, y % BlockSize);
  }

  /** The home block of (X, Y) lists it when X and Y are both below a width that is a multiple of 5. */
  lemma HomeBlockLists(img: Image, x: int, y: int)
    requires img.width % BlockSize == 0 && 0 <= x < img.width && 0 <= y < img.width
    ensures var b := (x / BlockSize) * Steps(img.width) + y / BlockSize;
      0 <= b < |Stamps(img)| && IndexOf(img.width, x, y) in Stamps(img)[b].indices
  {
    var n := Steps(img.width);
    StepsExact(img.width);
    CellBelow(n, x / BlockSize, y / BlockSize);
    BlockListsItsCell(img, x / BlockSize, y / BlockSize, x, y);
  }

  /**
   * A block of a width-multiple-of-5 image that lies inside the image is
   * painted uniformly: every pixel of its 5x5 cell ends with the block's
   * colour.
   */
  lemma FullBlockIsUniform(img: Image, b: int, x: int, y: int)
    requires img.Valid() && img.width % BlockSize == 0
    requires 0 <= b < |Stamps(img)|
    requires BlockSize * (b % Steps(img.width)) + BlockSize <= img.height
    requires 0 <= x && 0 <= y
    requires x / BlockSize == b / Steps(img.width) && y / BlockSize == b % Steps(img.width)
    ensures Px(Pixelated(img), x, y) == Stamps(img)[b].color
  {
    var n := Steps(img.width);
    StepsExact(img.width);
    assert n > 0;
    CellPixel(n, b, x, y);
    HomeBlockWins(img, x, y, b);
  }

  /** A pixel (x, y) in the cell of block b lies below 5n in both coordinates and has b as its home block. */
  lemma CellPixel(n: int, b: int, x: int, y: int)
    requires 0 < n && 0 <= b < n * n && 0 <= x && 0 <= y
    requires x / BlockSize == b / n && y / BlockSize == b % n
    ensures x < BlockSize * n && y < BlockSize * n && y < BlockSize * (b % n) + BlockSize
    ensures b == (x / BlockSize) * n + y / BlockSize
  {
    BlockCoordinates(b, n);
    DivModSplit(b, n);
  }

  /** A block whose 25 pixels lie inside the image has four finite averages. */
  lemma FullBlockMeansDefined(img: Image, b: int, c: int)
    requires img.Valid() && img.width % BlockSize == 0
    requires 0 <= b < |Stamps(img)|
    requires BlockSize * (b % Steps(img.width)) + BlockSize <= img.height
    requires 0 <= c < 4
    ensures Mean(img, Stamps(img)[b].indices, c).Finite?
  {
    var w, h, n := img.width, img.height, Steps(img.width);
    assert n > 0;
    BlockCoordinates(b, n);
    var ox, oy := BlockSize * (b / n), BlockSize * (b % n);
    assert ox + BlockSize <= w;
    StampIndices(img, b);
    var idxs := BlockIndices(w, ox, oy);
    BlockInsideReads(img, ox, oy, c);
    TotalNaN(img, idxs, c, |idxs|);
  }

  /** Entry Slot(i, j) of a block's list is pixel (ox + i, oy + j): i outer, j inner. */
  lemma BlockSlot(width: int, ox: int, oy: int, i: int, j: int)
    requires 0 <= i < BlockSize && 0 <= j < BlockSize
    ensures 0 <= Slot(i, j) < BlockSize * BlockSize
    ensures BlockIndices(width, ox, oy)[Slot(i, j)] == IndexOf(width, ox + i, oy + j)
  {
    var t := Slot(i, j);
    assert t / BlockSize == i && t % BlockSize == j;
    BlockIndexAt(width, ox, oy, t);
  }

  /** Entry t of a block's list is pixel (ox + t / 5, oy + t % 5). */
  lemma BlockIndexAt(width: int, ox: int, oy: int, t: int)
    requires 0 <= t < BlockSize * BlockSize
    ensures BlockIndices(width, ox, oy)[t] == IndexOf(width, ox + t / BlockSize, oy + t % BlockSize)
  {
  }

  /** Every read of a block lying inside the image is within the buffer. */
  lemma BlockInsideReads(img: Image, ox: int, oy: int, c: int)
    requires img.Valid() && 0 <= ox && ox + BlockSize <= img.width && 0 <= oy && oy + BlockSize <= img.height
    requires 0 <= c < 4
    ensures forall t | 0 <= t < BlockSize * BlockSize :: 0 <= BlockIndices(img.width, ox, oy)[t] + c < |img.pixels|
  {
    forall t | 0 <= t < BlockSize * BlockSize
      ensures 0 <= BlockIndices(img.width, ox, oy)[t] + c < |img.pixels|
    {
      BlockIndexAt(img.width, ox, oy, t);
      IndexInRange(img.width, img.height, ox + t / BlockSize, oy + t % BlockSize);
    }
  }

  /**
   * The block loops stop at the WIDTH: when the width is a multiple of 5,
   * every pixel in a row at or below index `width` is listed by no block
   * and keeps its grayscale value.
   */
  lemma RowsFromWidthStayGray(img: Image, x: int, y: int)
    requires img.Valid() && img.width % BlockSize == 0
    requires InBounds(img, x, y) && y >= img.width
    ensures LastListing(Stamps(img), IndexOf(img.width, x, y)) == -1
    ensures Px(Pixelated(img), x, y) == Px(Grayscale(img), x, y)
  {
    var l := LastListing(Stamps(img), IndexOf(img.width, x, y));
    StepsExact(img.width);
    if l >= 0 {
      ListedOnlyByHomeBlock(img, l, x, y);
      assert false;
    }
  }

  /**
   * Reference sum of channel c over the 5x5 pixels with origin (ox, oy),
   * taken through Px in the order the block lists them.
   */
  function CellSum(img: Image, ox: int, oy: int, c: int, m: nat): real
  {
    if m == 0 then 0.0
    else CellSum(img, ox, oy, c, m - 1) + Chan(Px(img, ox + (m - 1) / BlockSize, oy + (m - 1) % BlockSize), c)
  }

  /** Reading channel c at a pixel's index gives that channel of Px. */
  lemma ReadIsChan(img: Image, x: int, y: int, c: int)
    requires img.Valid() && InBounds(img, x, y) && 0 <= c < 4
    ensures Read(img, IndexOf(img.width, x, y) + c) == Finite(Chan(Px(img, x, y), c))
  {
    IndexInRange(img.width, img.height, x, y);
  }

  lemma {:induction false} TotalIsCellSum(img: Image, ox: int, oy: int, c: int, m: nat)
    requires img.Valid() && 0 <= ox && ox + BlockSize <= img.width && 0 <= oy && oy + BlockSize <= img.height
    requires 0 <= c < 4 && m <= BlockSize * BlockSize
    ensures Total(img, BlockIndices(img.width, ox, oy), c, m) == Finite(CellSum(img, ox, oy, c, m))
  {
    if m > 0 {
      TotalIsCellSum(img, ox, oy, c, m - 1);
      TotalCellStep(img, ox, oy, c, m);
    }
  }

  /** One more entry of the block's list adds one more pixel of its cell to both sums. */
  lemma TotalCellStep(img: Image, ox: int, oy: int, c: int, m: nat)
    requires img.Valid() && 0 <= ox && ox + BlockSize <= img.width && 0 <= oy && oy + BlockSize <= img.height
    requires 0 <= c < 4 && 0 < m <= BlockSize * BlockSize
    requires Total(img, BlockIndices(img.width, ox, oy), c, m - 1) == Finite(CellSum(img, ox, oy, c, m - 1))
    ensures Total(img, BlockIndices(img.width, ox, oy), c, m) == Finite(CellSum(img, ox, oy, c, m))
  {
    EntryReadsCell(img, ox, oy, c, m - 1);
  }

  /** Entry t of a whole block's list reads channel c of the t-th pixel of its cell. */
  lemma EntryReadsCell(img: Image, ox: int, oy: int, c: int, t: int)
    requires img.Valid() && 0 <= ox && ox + BlockSize <= img.width && 0 <= oy && oy + BlockSize <= img.height
    requires 0 <= c < 4 && 0 <= t < BlockSize * BlockSize
    ensures Read(img, BlockIndices(img.width, ox, oy)[t] + c) ==
      Finite(Chan(Px(img, ox + t / BlockSize, oy + t % BlockSize), c))
  {
    assert 0 <= t / BlockSize < BlockSize;
    BlockIndexAt(img.width, ox, oy, t);
    ReadIsChan(img, ox + t / BlockSize, oy + t % BlockSize, c);
  }

  /**
   * The colour of a block inside a width-multiple-of-5 image is, channel by
   * channel, Math.round of the mean of its 25 pixels.
   */
  lemma BlockColourIsCellMean(img: Image, b: int, c: int)
    requires img.Valid() && img.width % BlockSize == 0
    requires 0 <= b < |Stamps(img)|
    requires BlockSize * (b % Steps(img.width)) + BlockSize <= img.height
    requires 0 <= c < 4
    ensures var ox, oy := BlockSize * (b / Steps(img.width)), BlockSize * (b % Steps(img.width));
      Chan(Stamps(img)[b].color, c) == Round(CellSum(img, ox, oy, c, 25) / 25.0) as real
  {
    var n := Steps(img.width);
    StepsExact(img.width);
    assert n > 0;
    BlockCoordinates(b, n);
    var ox, oy := BlockSize * (b / n), BlockSize * (b % n);
    assert ox + BlockSize <= img.width;
    StampColour(img, b, c);
    CellMean(img, ox, oy, c);
  }

  /** Channel c of block b's colour is the stored average of channel c over its list. */
  lemma StampColour(img: Image, b: int, c: int)
    requires 0 <= b < |Stamps(img)| && 0 <= c < 4
    ensures var n := Steps(img.width);
      Chan(Stamps(img)[b].color, c) ==
        Stored(Mean(img, BlockIndices(img.width, BlockSize * (b / n), BlockSize * (b % n)), c))
  {
  }

  /** The stored average of a block inside the image is the rounded mean of its 25 pixels. */
  lemma CellMean(img: Image, ox: int, oy: int, c: int)
    requires img.Valid() && 0 <= ox && ox + BlockSize <= img.width && 0 <= oy && oy + BlockSize <= img.height
    requires 0 <= c < 4
    ensures Stored(Mean(img, BlockIndices(img.width, ox, oy), c)) == Round(CellSum(img, ox, oy, c, 25) / 25.0) as real
  {
    TotalIsCellSum(img, ox, oy, c, 25);
  }

  /**
   * When the width is a multiple of 5, a pixel in a row above index `width`
   * ends with the colour of its home block, whatever the other blocks paint.
   */
  lemma HomeBlockWins(img: Image, x: int, y: int, b: int)
    requires img.Valid() && img.width % BlockSize == 0
    requires InBounds(img, x, y) && y < img.width
    requires b == (x / BlockSize) * Steps(img.width) + y / BlockSize
    ensures 0 <= b < |Stamps(img)| && LastListing(Stamps(img), IndexOf(img.width, x, y)) == b
    ensures Px(Pixelated(img), x, y) == Stamps(img)[b].color
  {
    var s := Stamps(img);
    HomeBlockLists(img, x, y);
    var l := LastListing(s, IndexOf(img.width, x, y));
    assert l >= b;
    ListedOnlyByHomeBlock(img, l, x, y);
    assert l == b;
    assert Px(Pixelated(img), x, y) == s[l].color;
  }

  /** The home block b of (X, Y), when its cell lies inside the image, has the cell's rounded means as its colour. */
  lemma HomeBlockColour(img: Image, x: int, y: int, b: int, c: int)
    requires img.Valid() && img.width % BlockSize == 0 && img.height % BlockSize == 0
    requires img.height <= img.width && InBounds(img, x, y) && 0 <= c < 4
    requires b == (x / BlockSize) * Steps(img.width) + y / BlockSize
    ensures 0 <= b < |Stamps(img)|
    ensures Chan(Stamps(img)[b].color, c) ==
      Round(CellSum(img, BlockSize * (x / BlockSize), BlockSize * (y / BlockSize), c, 25) / 25.0) as real
  {
    var n := Steps(img.width);
    StepsExact(img.width);
    CellOf(n, img.width, img.height, x, y);
    CellBelow(n, x / BlockSize, y / BlockSize);
    DivModUnique(x / BlockSize, y / BlockSize, n);
    BlockColourIsCellMean(img, b, c);
  }

  /** The cell of a pixel of a grid 5n wide and at most as tall, with sides multiples of 5. */
  lemma CellOf(n: int, w: int, h: int, x: int, y: int)
    requires w == BlockSize * n && h % BlockSize == 0 && h <= w && 0 <= x < w && 0 <= y < h
    ensures 0 <= x / BlockSize < n && 0 <= y / BlockSize < n
    ensures BlockSize * (x / BlockSize) + BlockSize <= w && BlockSize * (y / BlockSize) + BlockSize <= h
  {
  }

  /**
   * When both sides are multiples of 5 and the image is at least as wide as
   * it is tall (the loops' width bound then reaches every row), every pixel
   * ends with the colour of its own 5x5 cell: channel by channel the
   * rounded mean of that cell's 25 pixels.
   */
  lemma EveryPixelTakesItsCellMean(img: Image, x: int, y: int, c: int)
    requires img.Valid() && img.width % BlockSize == 0 && img.height % BlockSize == 0
    requires img.height <= img.width && InBounds(img, x, y) && 0 <= c < 4
    ensures Chan(Px(Pixelated(img), x, y), c) ==
      Round(CellSum(img, BlockSize * (x / BlockSize), BlockSize * (y / BlockSize), c, 25) / 25.0) as real
  {
    var b := (x / BlockSize) * Steps(img.width) + y / BlockSize;
    HomeBlockWins(img, x, y, b);
    HomeBlockColour(img, x, y, b, c);
  }
}

=== FILE: raster.dfy ===
/**
 * The raster data model shared by every filter: a p5 image is a width, a
 * height and a flat RGBA buffer, row-major, four channels per pixel, with
 * pixel (x, y) starting at index (y * width + x) * 4.
 *
 * Channel values are exact reals.  Two facts about p5's typed pixel array are
 * modelled because the filters depend on them: a NaN written into the buffer
 * reads back as 0, and a write past the end of the buffer is dropped.
 */
module Raster {

  /** One RGBA pixel. */
  datatype Pixel = Pixel(r: real, g: real, b: real, a: real)

  /** What a freshly created p5 image holds at every pixel: transparent black. */
  const Black: Pixel := Pixel(0.0, 0.0, 0.0, 0.0)

  /** Channel `c` of a pixel: 0 red, 1 green, 2 blue, anything else alpha. */
  function Chan(p: Pixel, c: int): real
  {
    if c == 0 then p.r else if c == 1 then p.g else if c == 2 then p.b else p.a
  }

  /** A p5 image: dimensions plus the flat RGBA buffer. */
  datatype Image = Image(width: nat, height: nat, pixels: seq<real>)
  {
    /** The buffer holds exactly four channels per pixel. */
    predicate Valid()
    {
      |pixels| == width * height * 4
    }
  }

  /**
   * A JavaScript number as the filters compute it: either an ordinary value
   * or NaN (the result of 0/0, of arithmetic on `undefined`, ...).
   */
  datatype Num = Finite(v: real) | NaN

  /** The value a typed pixel array holds after the number is written into it. */
  function Stored(n: Num): (s: real)
    ensures n.Finite? ==> s == n.v
    ensures n.NaN? ==> s == 0.0
  {
    match n
    case Finite(v) => v
    case NaN => 0.0
  }

  /** The value `img.pixels[k]`: `undefined`, so NaN in arithmetic, past the buffer. */
  function Read(img: Image, k: int): (n: Num)
    ensures n.Finite? <==> 0 <= k < |img.pixels|
    ensures n.Finite? ==> n.v == img.pixels[k]
  {
    if 0 <= k < |img.pixels| then Finite(img.pixels[k]) else NaN
  }

  /** A typed-array store: dropped when the index is past either end. */
  function Write(buf: seq<real>, k: int, v: real): (r: seq<real>)
    ensures |r| == |buf|
    ensures forall i | 0 <= i < |buf| :: r[i] == if i == k then v else buf[i]
  {
    if 0 <= k < |buf| then buf[k := v] else buf
  }

  /** JavaScript's `Math.round`: halves go up. */
  function Round(v: real): (r: int)
    ensures v - 1.0 / 2.0 < r as real <= v + 1.0 / 2.0
  {
    (v + 1.0 / 2.0).Floor
  }

  /** Flat index of the red channel of pixel (x, y) in an image `width` wide. */
  function IndexOf(width: int, x: int, y: int): int
  {
    (y * width + x) * 4
  }

  predicate InBounds(img: Image, x: int, y: int)
  {
    0 <= x < img.width && 0 <= y < img.height
  }

  /** Every channel lies in [0, 255], as in any image p5 loads or creates. */
  predicate ChannelRange(img: Image)
  {
    forall k | 0 <= k < |img.pixels| :: 0.0 <= img.pixels[k] <= 255.0
  }

  /** Pixel (x, y) of an image; transparent black off the image. */
  function Px(img: Image, x: int, y: int): Pixel
  {
    var k := IndexOf(img.width, x, y);
    if InBounds(img, x, y) && 0 <= k && k + 3 < |img.pixels| then
      Pixel(img.pixels[k], img.pixels[k + 1], img.pixels[k + 2], img.pixels[k + 3])
    else
      Black
  }

  /** The four channels of an in-range pixel occupy indices inside the buffer. */
  lemma IndexInRange(w: int, h: int, x: int, y: int)
    requires 0 <= x < w && 0 <= y < h
    ensures 0 <= IndexOf(w, x, y)
    ensures IndexOf(w, x, y) + 3 < w * h * 4
  {
    assert y * w <= (h - 1) * w by {
      assert (h - 1) * w - y * w == (h - 1 - y) * w;
    }
    assert (h - 1) * w + w == h * w;
  }

  /** A positive multiple of w is at least w. */
  lemma MulAtLeast(d: int, w: int)
    requires d >= 1 && w >= 0
    ensures d * w >= w
  {
    assert d * w == (d - 1) * w + w;
  }

  /** Row-major pixel numbers are unique: p == x + y * w with 0 <= x < w fixes x and y. */
  lemma RowMajorUnique(w: int, x: int, y: int, x': int, y': int)
    requires 0 <= x < w && 0 <= x' < w
    requires x + y * w == x' + y' * w
    ensures x == x' && y == y'
  {
    assert (y' - y) * w == x - x';
    if y < y' {
      MulAtLeast(y' - y, w);
    } else if y' < y {
      MulAtLeast(y - y', w);
    }
  }

  /** Decomposes a buffer index into the pixel coordinates and channel it addresses. */
  lemma Decompose(w: nat, h: nat, k: int)
    requires 0 <= k < w * h * 4
    ensures w > 0
    ensures 0 <= (k / 4) % w < w && 0 <= (k / 4) / w < h
    ensures k == IndexOf(w, (k / 4) % w, (k / 4) / w) + k % 4
  {
    var p := k / 4;
    assert w > 0;
    var x, y := p % w, p / w;
    assert p == y * w + x;
  }

  /** The inverse of Decompose: an index built from (x, y, c) decomposes back to them. */
  lemma Compose(w: nat, h: nat, x: int, y: int, c: int)
    requires 0 <= x < w && 0 <= y < h && 0 <= c < 4
    ensures var k := IndexOf(w, x, y) + c;
      0 <= k < w * h * 4 && k % 4 == c && (k / 4) % w == x && (k / 4) / w == y
  {
    var k := IndexOf(w, x, y) + c;
    IndexInRange(w, h, x, y);
    assert k / 4 == y * w + x;
    Decompose(w, h, k);
    RowMajorUnique(w, x, y, (k / 4) % w, (k / 4) / w);
  }

  /** Every pixel index is a multiple of 4, whatever the signs of x and y. */
  lemma IndexAligned(width: int, x: int, y: int)
    ensures IndexOf(width, x, y) % 4 == 0
  {
  }

  /** Channel c of a pixel-aligned index t sits at t + c. */
  lemma AlignedChannel(t: int, c: int)
    requires t % 4 == 0 && 0 <= c < 4
    ensures (t + c) % 4 == c && (t + c) / 4 == t / 4
  {
    assert t == 4 * (t / 4);
    assert t + c == 4 * (t / 4) + c;
  }

  /** The index of a pixel with non-negative coordinates is a non-negative multiple of 4. */
  lemma IndexNonNegative(width: nat, x: int, y: int)
    requires 0 <= x && 0 <= y
    ensures IndexOf(width, x, y) >= 0 && IndexOf(width, x, y) % 4 == 0
  {
    assert y * width >= 0;
  }

  /** Any index splits into its pixel's first index and a channel below 4. */
  lemma SplitIndex(k: int)
    ensures (k - k % 4) % 4 == 0 && 0 <= k % 4 < 4
  {
    assert k - k % 4 == 4 * (k / 4);
  }

  /** Two distinct multiples of 4 are at least 4 apart. */
  lemma AlignedApart(i: int, j: int)
    requires i % 4 == 0 && j % 4 == 0 && i != j
    ensures i + 4 <= j || j + 4 <= i
  {
    assert i == 4 * (i / 4) && j == 4 * (j / 4);
    assert i / 4 != j / 4;
  }

  /** The buffer of a w-by-h image whose pixel (x, y) is f(x, y). */
  function GenerateBuffer(w: nat, h: nat, f: (int, int) -> Pixel): (buf: seq<real>)
    ensures |buf| == w * h * 4
  {
    seq(w * h * 4, k requires 0 <= k < w * h * 4 =>
      var p := k / 4;
      Chan(f(p % w, p / w), k % 4))
  }

  /** A fresh w-by-h image whose pixel (x, y) is f(x, y). */
  function Generate(w: nat, h: nat, f: (int, int) -> Pixel): (r: Image)
    ensures r.width == w && r.height == h && r.Valid()
    ensures forall x, y | 0 <= x < w && 0 <= y < h :: Px(r, x, y) == f(x, y)
  {
    var r := Image(w, h, GenerateBuffer(w, h, f));
    assert forall x, y | 0 <= x < w && 0 <= y < h :: Px(r, x, y) == f(x, y) by {
      forall x, y | 0 <= x < w && 0 <= y < h
        ensures Px(r, x, y) == f(x, y)
      {
        Compose(w, h, x, y, 0);
        Compose(w, h, x, y, 1);
        Compose(w, h, x, y, 2);
        Compose(w, h, x, y, 3);
      }
    }
    r
  }

  /** A fresh image of the same size whose every pixel is f of the input pixel. */
  function MapPixels(img: Image, f: Pixel -> Pixel): (r: Image)
    ensures r.width == img.width && r.height == img.height && r.Valid()
    ensures forall x, y | InBounds(img, x, y) :: Px(r, x, y) == f(Px(img, x, y))
  {
    Generate(img.width, img.height, (x, y) => f(Px(img, x, y)))
  }

  /** p5's `createImage(w, h)`: every pixel transparent black. */
  function Blank(w: nat, h: nat): (r: Image)
    ensures r.width == w && r.height == h && r.Valid()
    ensures forall x, y | 0 <= x < w && 0 <= y < h :: Px(r, x, y) == Black
  {
    Generate(w, h, (x, y) => Black)
  }

  /** Every entry of a blank buffer is 0. */
  lemma BlankIsZero(w: nat, h: nat, k: int)
    requires 0 <= k < |Blank(w, h).pixels|
    ensures Blank(w, h).pixels[k] == 0.0
  {
    PxChannel(Blank(w, h), k);
  }

  /** Two valid images of the same size that agree on every pixel are equal. */
  lemma Extensionality(a: Image, b: Image)
    requires a.Valid() && b.Valid()
    requires a.width == b.width && a.height == b.height
    requires forall x, y | InBounds(a, x, y) :: Px(a, x, y) == Px(b, x, y)
    ensures a == b
  {
    forall k | 0 <= k < |a.pixels|
      ensures a.pixels[k] == b.pixels[k]
    {
      Decompose(a.width, a.height, k);
      var x, y := (k / 4) % a.width, (k / 4) / a.width;
      IndexInRange(a.width, a.height, x, y);
      assert Px(a, x, y) == Px(b, x, y);
    }
  }

  /** An in-bounds pixel is the four buffer entries from its aligned flat index. */
  lemma PxAt(img: Image, x: int, y: int)
    requires img.Valid() && InBounds(img, x, y)
    ensures var i := IndexOf(img.width, x, y);
      0 <= i && i + 3 < |img.pixels| && i % 4 == 0 &&
      Px(img, x, y) == Pixel(img.pixels[i], img.pixels[i + 1], img.pixels[i + 2], img.pixels[i + 3])
  {
    IndexInRange(img.width, img.height, x, y);
    IndexAligned(img.width, x, y);
  }

  /** Reads channel values of one buffer index back through Px. */
  lemma PxChannel(img: Image, k: int)
    requires img.Valid() && 0 <= k < |img.pixels|
    ensures var x, y := (k / 4) % img.width, (k / 4) / img.width;
      InBounds(img, x, y) && img.pixels[k] == Chan(Px(img, x, y), k % 4)
  {
    Decompose(img.width, img.height, k);
    var x, y := (k / 4) % img.width, (k / 4) / img.width;
    IndexInRange(img.width, img.height, x, y);
  }

  /** Every channel of a pixel in [0, 255]. */
  predicate PixelRange(p: Pixel)
  {
    0.0 <= p.r <= 255.0 && 0.0 <= p.g <= 255.0 && 0.0 <= p.b <= 255.0 && 0.0 <= p.a <= 255.0
  }

  /** The pixels of an image whose channels are in [0, 255] are in range. */
  lemma PxRange(img: Image, x: int, y: int)
    requires ChannelRange(img)
    ensures PixelRange(Px(img, x, y))
  {
    var k := IndexOf(img.width, x, y);
    if InBounds(img, x, y) && 0 <= k && k + 3 < |img.pixels| {
      assert 0.0 <= img.pixels[k] <= 255.0 && 0.0 <= img.pixels[k + 1] <= 255.0;
      assert 0.0 <= img.pixels[k + 2] <= 255.0 && 0.0 <= img.pixels[k + 3] <= 255.0;
    }
  }

  /** Conversely, an image whose every pixel is in range has every channel in [0, 255]. */
  lemma RangeFromPixels(img: Image)
    requires img.Valid()
    requires forall x, y | InBounds(img, x, y) :: PixelRange(Px(img, x, y))
    ensures ChannelRange(img)
  {
    forall k | 0 <= k < |img.pixels|
      ensures 0.0 <= img.pixels[k] <= 255.0
    {
      PxChannel(img, k);
      var x, y := (k / 4) % img.width, (k / 4) / img.width;
      assert PixelRange(Px(img, x, y));
    }
  }
}

=== FILE: widget.dfy ===
/**
 * The region path of `FaceDetectionWidget` in widget.js: the detector's
 * face rectangle is rounded to an integer box, the image is masked to that
 * box by `crop`, and the filter named by the widget is applied to the
 * masked image.
 */
module FaceWidget {
  import opened Raster
  import opened PixelFilters
  import opened ColorSpace
  import opened Blur
  import opened Pixelate

  // ------------------------------------------------------------ bounding box

  /** What the face detector reports: no face, or a rectangle in pixel units. */
  datatype Detection = NoFace | Face(xMin: real, yMin: real, width: real, height: real)

  /** The widget's integer box: top-left corner and extent. */
  datatype Box = Box(x: int, y: int, w: int, h: int)

  /** JavaScript's `Math.ceil`. */
  function Ceil(v: real): (r: int)
    ensures v <= r as real < v + 1.0
  {
    -((-v).Floor)
  }

  /**
   * The box the constructor builds: floor of the corner, ceiling of the
   * extent; all zeros when there is no face.
   */
  function BoundingBox(face: Detection): (b: Box)
    ensures face.NoFace? ==> b == Box(0, 0, 0, 0)
    ensures face.Face? ==>
      b.x as real <= face.xMin < b.x as real + 1.0 &&
      b.y as real <= face.yMin < b.y as real + 1.0 &&
      face.width <= b.w as real < face.width + 1.0 &&
      face.height <= b.h as real < face.height + 1.0
  {
    match face
    case NoFace => Box(0, 0, 0, 0)
    case Face(xMin, yMin, width, height) => Box(xMin.Floor, yMin.Floor, Ceil(width), Ceil(height))
  }

  /**
   * The rounded box starts at or before the detected rectangle, but since
   * the corner moves left while the extent is rounded on its own, its right
   * and bottom edges lie within one pixel of the rectangle's, on either side.
   */
  lemma BoxEdgesWithinOnePixel(face: Detection)
    requires face.Face?
    ensures var b := BoundingBox(face);
      face.xMin + face.width - 1.0 < (b.x + b.w) as real < face.xMin + face.width + 1.0 &&
      face.yMin + face.height - 1.0 < (b.y + b.h) as real < face.yMin + face.height + 1.0
  {
  }

  /** A detection at x = 0.5, one pixel wide: the box [0, 1) misses its right half. */
  lemma BoxCanFallShort()
    ensures var face := Face(0.5, 0.0, 1.0, 1.0);
      BoundingBox(face) == Box(0, 0, 1, 1) && (BoundingBox(face).x + BoundingBox(face).w) as real < face.xMin + face.width
  {
    assert Ceil(1.0) == 1;
  }

  /** Iterations of a loop `for (v = a; v < a + n; v++)`. */
  function Count(n: int): nat
  {
    if n > 0 then n else 0
  }

  /** Pixel (x, y) lies in the box. */
  predicate InBox(box: Box, x: int, y: int)
  {
    box.x <= x < box.x + box.w && box.y <= y < box.y + box.h
  }

  /** The box lies within the image (the detector does not promise this). */
  predicate BoxInside(box: Box, img: Image)
  {
    0 <= box.x && box.x + box.w <= img.width && 0 <= box.y && box.y + box.h <= img.height
  }

  // ------------------------------------------------------------------- crop

  /** The value `crop` stores at index k: `img.pixels[k]`, with `undefined` stored as 0. */
  function Copied(img: Image, k: int): real
  {
    Stored(Read(img, k))
  }

  /** One iteration of the inner loop: the four channels at index i copied. */
  function CopyAt(buf: seq<real>, img: Image, i: int): (r: seq<real>)
    ensures |r| == |buf|
  {
    Write(Write(Write(Write(buf, i, Copied(img, i)), i + 1, Copied(img, i + 1)),
      i + 2, Copied(img, i + 2)), i + 3, Copied(img, i + 3))
  }

  /** The indices the inner loop visits for column x: m rows from y0, in order. */
  function ColumnIndices(width: int, x: int, y0: int, m: nat): (s: seq<int>)
    ensures |s| == m
    ensures forall t | 0 <= t < m :: s[t] == IndexOf(width, x, y0 + t)
  {
    seq(m, t => IndexOf(width, x, y0 + t))
  }

  /** Copies the four channels at each listed index, in order. */
  function CopyAll(buf: seq<real>, img: Image, idxs: seq<int>): (r: seq<real>)
    ensures |r| == |buf|
  {
    if |idxs| == 0 then buf
    else CopyAt(CopyAll(buf, img, idxs[..|idxs| - 1]), img, idxs[|idxs| - 1])
  }

  /**
   * The indices the two loops visit for the first m columns of the box, in
   * loop order: column after column, each from the box's top row down.
   */
  function BoxIndices(width: int, box: Box, m: nat): (s: seq<int>)
  {
    if m == 0 then []
    else BoxIndices(width, box, m - 1) + ColumnIndices(width, box.x + m - 1, box.y, Count(box.h))
  }

  /** Channel k of a crop: copied when its pixel's index is on the box's list, else transparent black. */
  function CropValue(img: Image, box: Box, k: int): real
    requires 0 <= k < |img.pixels|
  {
    if BoxHits(img.width, box, Count(box.w), k - k % 4) then img.pixels[k] else 0.0
  }

  /**
   * `crop(img, box)`: a fresh image the size of the input, into which the
   * loops copy the four channels at index (y * width + x) * 4 for every
   * (x, y) of the box.  Nothing checks that the box is inside the image.
   */
  function Crop(img: Image, box: Box): (r: Image)
    requires img.Valid()
    ensures r.width == img.width && r.height == img.height && r.Valid()
    ensures forall k {:trigger CropValue(img, box, k)} | 0 <= k < |r.pixels| :: r.pixels[k] == CropValue(img, box, k)
  {
    CopiedAll(img, box);
    Image(img.width, img.height, CopyAll(Blank(img.width, img.height).pixels, img, BoxIndices(img.width, box, Count(box.w))))
  }

  /** Some pass of the inner loop for column x, among its first m, targets index q. */
  predicate ColumnHits(width: int, x: int, y0: int, m: nat, q: int)
  {
    q in ColumnIndices(width, x, y0, m)
  }

  /** Some pass of the loops over the first m columns of the box targets index q. */
  predicate BoxHits(width: int, box: Box, m: nat, q: int)
  {
    q in BoxIndices(width, box, m)
  }

  lemma CopyAtEffect(buf: seq<real>, img: Image, j: int, i: int, c: int)
    requires |buf| == |img.pixels| && j % 4 == 0 && i % 4 == 0 && 0 <= c < 4 && 0 <= i + c < |buf|
    ensures CopyAt(buf, img, j)[i + c] == if i == j then img.pixels[i + c] else buf[i + c]
  {
    if i != j {
      AlignedApart(i, j);
    }
  }

  lemma {:induction false} CopyAllEffect(buf: seq<real>, img: Image, idxs: seq<int>, i: int, c: int)
    requires forall t | 0 <= t < |idxs| :: idxs[t] % 4 == 0
    requires |buf| == |img.pixels| && i % 4 == 0 && 0 <= c < 4 && 0 <= i + c < |buf|
    ensures CopyAll(buf, img, idxs)[i + c] == if i in idxs then img.pixels[i + c] else buf[i + c]
  {
    if |idxs| > 0 {
      var pre, last := idxs[..|idxs| - 1], idxs[|idxs| - 1];
      CopyAllEffect(buf, img, pre, i, c);
      CopyAtEffect(CopyAll(buf, img, pre), img, last, i, c);
      assert idxs == pre + [last];
    }
  }

  /** Every index the loops visit is a multiple of 4. */
  lemma {:induction false} BoxIndicesAligned(width: int, box: Box, m: nat)
    ensures forall t | 0 <= t < |BoxIndices(width, box, m)| :: BoxIndices(width, box, m)[t] % 4 == 0
  {
    if m > 0 {
      var pre, col := BoxIndices(width, box, m - 1), ColumnIndices(width, box.x + m - 1, box.y, Count(box.h));
      BoxIndicesAligned(width, box, m - 1);
      forall t | 0 <= t < |col|
        ensures col[t] % 4 == 0
      {
        IndexAligned(width, box.x + m - 1, box.y + t);
      }
      assert BoxIndices(width, box, m) == pre + col;
    }
  }

  /**
   * Whatever the box: an index whose pixel the loops visit holds the input's
   * value there; every other index keeps the fresh image's 0.  Visiting the
   * same index twice copies the same value, so the loop order does not
   * matter.
   */
  lemma CopiedAll(img: Image, box: Box)
    requires img.Valid()
    ensures var buf := CopyAll(Blank(img.width, img.height).pixels, img, BoxIndices(img.width, box, Count(box.w)));
      forall k | 0 <= k < |img.pixels| :: buf[k] == CropValue(img, box, k)
  {
    forall k | 0 <= k < |img.pixels|
      ensures CopyAll(Blank(img.width, img.height).pixels, img, BoxIndices(img.width, box, Count(box.w)))[k] ==
        CropValue(img, box, k)
    {
      SplitIndex(k);
      CopiedChannel(img, box, k - k % 4, k % 4);
    }
  }

  /** CopiedAll for channel c of the pixel at index i. */
  lemma CopiedChannel(img: Image, box: Box, i: int, c: int)
    requires img.Valid() && i % 4 == 0 && 0 <= c < 4 && 0 <= i + c < |img.pixels|
    ensures CopyAll(Blank(img.width, img.height).pixels, img, BoxIndices(img.width, box, Count(box.w)))[i + c] ==
      if BoxHits(img.width, box, Count(box.w), i) then img.pixels[i + c] else 0.0
  {
    BoxIndicesAligned(img.width, box, Count(box.w));
    CopyAllEffect(Blank(img.width, img.height).pixels, img, BoxIndices(img.width, box, Count(box.w)), i, c);
    BlankIsZero(img.width, img.height, i + c);
  }

  lemma ColumnHitsMeans(width: int, x: int, y0: int, m: nat, q: int)
    ensures ColumnHits(width, x, y0, m, q) <==> exists y | y0 <= y < y0 + m :: IndexOf(width, x, y) == q
  {
    var idxs := ColumnIndices(width, x, y0, m);
    if q in idxs {
      var t :| 0 <= t < m && idxs[t] == q;
      assert y0 <= y0 + t < y0 + m && IndexOf(width, x, y0 + t) == q;
    }
    if exists y | y0 <= y < y0 + m :: IndexOf(width, x, y) == q {
      var y :| y0 <= y < y0 + m && IndexOf(width, x, y) == q;
      assert idxs[y - y0] == q;
    }
  }

  lemma {:induction false} BoxHitsUpTo(width: int, box: Box, m: nat, q: int)
    requires m <= Count(box.w)
    ensures BoxHits(width, box, m, q) <==>
      exists x, y | box.x <= x < box.x + m && box.y <= y < box.y + box.h :: IndexOf(width, x, y) == q
  {
    if m > 0 {
      BoxHitsUpTo(width, box, m - 1, q);
      var x := box.x + m - 1;
      ColumnHitsMeans(width, x, box.y, Count(box.h), q);
      assert BoxHits(width, box, m, q) <==>
        BoxHits(width, box, m - 1, q) || ColumnHits(width, x, box.y, Count(box.h), q);
      if ColumnHits(width, x, box.y, Count(box.h), q) {
        var y :| box.y <= y < box.y + Count(box.h) && IndexOf(width, x, y) == q;
        assert box.x <= x < box.x + m && box.y <= y < box.y + box.h;
      }
      if exists x', y | box.x <= x' < box.x + m && box.y <= y < box.y + box.h :: IndexOf(width, x', y) == q {
        var x', y :| box.x <= x' < box.x + m && box.y <= y < box.y + box.h && IndexOf(width, x', y) == q;
        if x' == x {
          assert box.y <= y < box.y + Count(box.h);
        }
      }
    }
  }

  /** The loops visit exactly the indices of the pixels (x, y) of the box. */
  lemma BoxHitsExactly(width: int, box: Box, q: int)
    ensures BoxHits(width, box, Count(box.w), q) <==>
      exists x, y | InBox(box, x, y) :: IndexOf(width, x, y) == q
  {
    BoxHitsUpTo(width, box, Count(box.w), q);
  }

  /** For a box inside the image, the loops visit pixel (x, y) exactly when it is in the box. */
  lemma HitsInsideImage(img: Image, box: Box, x: int, y: int)
    requires BoxInside(box, img) && InBounds(img, x, y)
    ensures BoxHits(img.width, box, Count(box.w), IndexOf(img.width, x, y)) <==> InBox(box, x, y)
  {
    var i := IndexOf(img.width, x, y);
    BoxHitsExactly(img.width, box, i);
    if BoxHits(img.width, box, Count(box.w), i) {
      var x', y' :| InBox(box, x', y') && IndexOf(img.width, x', y') == i;
      RowMajorUnique(img.width, x, y, x', y');
    }
  }

  /**
   * For a box inside the image, `crop` is a masked copy: pixels in the box
   * are the input's, every other pixel is transparent black.
   */
  lemma {:induction false} CropInsideBox(img: Image, box: Box, x: int, y: int)
    requires img.Valid() && BoxInside(box, img) && InBounds(img, x, y)
    ensures Px(Crop(img, box), x, y) == if InBox(box, x, y) then Px(img, x, y) else Black
  {
    HitsInsideImage(img, box, x, y);
    PxAt(img, x, y);
    PxAt(Crop(img, box), x, y);
    CroppedQuad(img, box, IndexOf(img.width, x, y));
  }

  /** The four channels at an aligned index of a crop. */
  lemma {:induction false} CroppedQuad(img: Image, box: Box, i: int)
    requires img.Valid() && i % 4 == 0 && 0 <= i && i + 3 < |img.pixels|
    ensures var p := Crop(img, box).pixels;
      Pixel(p[i], p[i + 1], p[i + 2], p[i + 3]) ==
      if BoxHits(img.width, box, Count(box.w), i) then Pixel(img.pixels[i], img.pixels[i + 1], img.pixels[i + 2], img.pixels[i + 3])
      else Black
  {
    CroppedChannel(img, box, i, 0);
    CroppedChannel(img, box, i, 1);
    CroppedChannel(img, box, i, 2);
    CroppedChannel(img, box, i, 3);
  }

  /** Channel c of the pixel at aligned index i of a crop. */
  lemma {:induction false} CroppedChannel(img: Image, box: Box, i: int, c: int)
    requires img.Valid() && i % 4 == 0 && 0 <= c < 4 && 0 <= i + c < |img.pixels|
    ensures Crop(img, box).pixels[i + c] == if BoxHits(img.width, box, Count(box.w), i) then img.pixels[i + c] else 0.0
  {
    AlignedChannel(i, c);
    assert Crop(img, box).pixels[i + c] == CropValue(img, box, i + c);
  }

  /** Cropping a cropped image with the same box changes nothing. */
  lemma CropIdempotent(img: Image, box: Box)
    requires img.Valid()
    ensures Crop(Crop(img, box), box) == Crop(img, box)
  {
    var once := Crop(img, box);
    var twice := Crop(once, box);
    forall k | 0 <= k < |twice.pixels|
      ensures twice.pixels[k] == once.pixels[k]
    {
      assert twice.pixels[k] == CropValue(once, box, k);
      assert once.pixels[k] == CropValue(img, box, k);
    }
  }

  /** The box covering the whole image gives the image back. */
  lemma FullBoxIsIdentity(img: Image)
    requires img.Valid()
    ensures Crop(img, Box(0, 0, img.width, img.height)) == img
  {
    var box := Box(0, 0, img.width, img.height);
    var r := Crop(img, box);
    forall x, y | InBounds(r, x, y)
      ensures Px(r, x, y) == Px(img, x, y)
    {
      CropInsideBox(img, box, x, y);
    }
    Extensionality(r, img);
  }

  /** Cropping a p5 image keeps every channel in [0, 255], whatever the box. */
  lemma CropKeepsRange(img: Image, box: Box)
    requires img.Valid() && ChannelRange(img)
    ensures ChannelRange(Crop(img, box))
  {
    var r := Crop(img, box);
    forall k | 0 <= k < |r.pixels|
      ensures 0.0 <= r.pixels[k] <= 255.0
    {
      assert r.pixels[k] == CropValue(img, box, k);
    }
  }

  /**
   * The one-pixel box at the origin of a 2x2 image copies only the first
   * pixel's four channels; every other index is 0.
   */
  lemma OnePixelCropExample(img: Image, k: int)
    requires img.Valid() && img.width == 2 && img.height == 2 && 0 <= k < 16
    ensures Crop(img, Box(0, 0, 1, 1)).pixels[k] == if k < 4 then img.pixels[k] else 0.0
  {
    var box, q := Box(0, 0, 1, 1), k - k % 4;
    assert ColumnIndices(2, 0, 0, 1) == [IndexOf(2, 0, 0)];
    assert BoxIndices(2, box, 1) == [] + [IndexOf(2, 0, 0)];
    assert Crop(img, box).pixels[k] == CropValue(img, box, k);
  }

  // --------------------------------------------------------------- dispatch

  /** The blur level the widget uses. */
  const WidgetBlurLevel: nat := 10

  /**
   * The constructor's `switch (this.filter)`: a known name selects its filter
   * (colour space HSV with a null threshold; blur at level 10); any other
   * value, null included, leaves the image as it is.
   */
  function ApplyFilter(filter: string, img: Image): (r: Image)
    requires img.Valid()
    ensures r.width == img.width && r.height == img.height && r.Valid()
    ensures filter !in {"grayscale", "colorSpace", "inverted", "blur", "pixelated"} ==> r == img
    ensures filter == "blur" ==> BlurDefined(img, WidgetBlurLevel) && r == Blur.Blur(img, WidgetBlurLevel)
    ensures filter == "pixelated" ==> r == Pixelated(img)
  {
    match filter
    case "grayscale" => Grayscale(img)
    case "colorSpace" => ColorSpaceFilter(img, "HSV", Null, p => 0.0)
    case "inverted" => Invert(img)
    case "blur" =>
      WideKernelDefined(img, WidgetBlurLevel);
      Blur.Blur(img, WidgetBlurLevel)
    case "pixelated" => Pixelated(img)
    case _ => img
  }

  /** The filters that copy each pixel's alpha from their input. */
  predicate KeepsAlpha(filter: string)
  {
    filter in {"grayscale", "colorSpace", "inverted", "blur"}
  }

  /** The alpha-copying filters keep every pixel's alpha, whatever its colour. */
  lemma ApplyFilterAlpha(filter: string, img: Image, x: int, y: int)
    requires img.Valid() && KeepsAlpha(filter) && InBounds(img, x, y)
    ensures Px(ApplyFilter(filter, img), x, y).a == Px(img, x, y).a
  {
  }

  /** The per-pixel function a pixel-wise filter applies, or the identity. */
  function PixelFilter(filter: string, p: Pixel): Pixel
  {
    match filter
    case "grayscale" => GrayPixel(p)
    case "colorSpace" => HsvPixel(p, Null)
    case "inverted" => InvertPixel(p)
    case _ => p
  }

  /** The per-pixel filters act on each pixel on its own. */
  lemma ApplyFilterPixelwise(filter: string, img: Image, x: int, y: int)
    requires img.Valid() && InBounds(img, x, y)
    requires filter != "blur" && filter != "pixelated"
    ensures Px(ApplyFilter(filter, img), x, y) == PixelFilter(filter, Px(img, x, y))
  {
    if filter == "grayscale" {
      var p := Px(img, x, y);
      assert Px(Grayscale(img), x, y) == GrayPixel(p);
    } else if filter == "inverted" {
      var p := Px(img, x, y);
      assert Px(Invert(img), x, y) == InvertPixel(p);
    }
  }

  // ----------------------------------------------------------------- widget

  /** The state the constructor computes. */
  datatype FaceDetectionWidget = FaceDetectionWidget(
    img: Image, face: Detection, box: Box, cropped: Image, filter: string, filtered: Image)

  /**
   * The constructor: the box from the detection, the masked copy when a face
   * is present (the whole image otherwise), then the filter.
   */
  function NewFaceDetectionWidget(img: Image, filter: string, face: Detection): (w: FaceDetectionWidget)
    requires img.Valid()
    ensures w.img == img && w.face == face && w.filter == filter
    ensures w.box == BoundingBox(face)
    ensures w.cropped.width == img.width && w.cropped.height == img.height && w.cropped.Valid()
    ensures face.NoFace? ==> w.box == Box(0, 0, 0, 0) && w.cropped == img
    ensures face.Face? ==> w.cropped == Crop(img, w.box)
    ensures ChannelRange(img) ==> ChannelRange(w.cropped)
    ensures w.filtered == ApplyFilter(filter, w.cropped)
    ensures w.filtered.width == img.width && w.filtered.height == img.height
    ensures !KeepsAlpha(filter) && filter != "pixelated" ==> w.filtered == w.cropped
  {
    var box := BoundingBox(face);
    var cropped := if face.Face? then Crop(img, box) else img;
    assert ChannelRange(img) ==> ChannelRange(Crop(img, box)) by {
      if ChannelRange(img) { CropKeepsRange(img, box); }
    }
    FaceDetectionWidget(img, face, box, cropped, filter, ApplyFilter(filter, cropped))
  }

  /**
   * What the overlay relies on: with a face whose box lies inside the image
   * and an alpha-copying filter, every pixel outside the box is fully
   * transparent in the filtered image.
   */
  lemma OutsideBoxIsTransparent(img: Image, filter: string, face: Detection, x: int, y: int)
    requires img.Valid() && face.Face?
    requires BoxInside(BoundingBox(face), img) && KeepsAlpha(filter)
    requires InBounds(img, x, y) && !InBox(BoundingBox(face), x, y)
    ensures Px(NewFaceDetectionWidget(img, filter, face).filtered, x, y).a == 0.0
  {
    var w := NewFaceDetectionWidget(img, filter, face);
    CropInsideBox(img, w.box, x, y);
    ApplyFilterAlpha(filter, w.cropped, x, y);
  }

  /**
   * Inside the box, a pixel-wise filter gives the filtered input pixel, and
   * outside it the filter of transparent black.
   */
  lemma FilteredPixel(img: Image, filter: string, face: Detection, x: int, y: int)
    requires img.Valid() && face.Face?
    requires BoxInside(BoundingBox(face), img) && InBounds(img, x, y)
    requires filter != "blur" && filter != "pixelated"
    ensures Px(NewFaceDetectionWidget(img, filter, face).filtered, x, y) ==
      PixelFilter(filter, if InBox(BoundingBox(face), x, y) then Px(img, x, y) else Black)
  {
    var w := NewFaceDetectionWidget(img, filter, face);
    CropInsideBox(img, w.box, x, y);
    ApplyFilterPixelwise(filter, w.cropped, x, y);
  }
}
